=== FILE: README.md ===
# CollabSync core, modelled in Dafny

CollabSync (the CODEBUDDY repository) is a student-collaboration app: students register with a
university email, publish projects with required roles, apply to projects, connect with each other
and chat in project rooms. This project models the parts of it that hold sequential logic of their
own, as immutable datatypes and pure transition functions:

- **Mock backend** (`js/server.js`): an in-memory store of users, projects and per-room messages.
  `MockState` holds the records, the seed data and the store invariant. `MockHandlers` holds
  register, login, create project, apply, connect and the `send-message` store update.
  `MockQueries` holds the project and user listings with their query filters, and the skill-based
  recommendations. Every handler is `(store, request) -> (reply, store')`.
- **Client rules** (`js/script.js`, module `ClientApp`): the project and user search filters, the
  task-board columns, role collection and creation of a new project, the chat send guard, tech-tag
  entry and the connect guard.
- **Validator and schema enums** (`lib/index.ts`, module `Schema`): `validateUniversityEmail` and
  the enumerated fields with their defaults.
- **Next.js handlers** (`app/api/auth/route.ts` as `AuthRoute`, `app/api/projects/route.ts` as
  `ProjectsRoute`, with the shared bearer-token reading in `Tokens`): which guard fires first and
  which status each failure gets. The database connection, bcrypt, jsonwebtoken and schema
  validation on create are oracles passed in as parameters.
- **Workspace** (`components/Workspace.tsx`, module `Workspace`): the chat send guard and payload,
  appending pushed messages, loading history, and adding a task.

Shared vocabulary: `Common` (Option, thrown-or-returned outcomes, replies, JavaScript
truthiness); `Seqs` (`filter`, `find`, `slice` and order-preserving subsequences); `Text` (the
JavaScript string operations used: `trim` with the exact ECMAScript white-space set,
`toLowerCase`, `includes`, `endsWith`, `split(sep)[1]`, `replace` with a string pattern).

Ids from `Date.now()` or from MongoDB are supplied as parameters. A JSON field that is missing
is `None` in the Next.js handlers and in the mock server's register email and password and login
fields. The other mock-server request fields are taken as present; "## Left out" names them.

Behaviour of the code that may surprise a reader:
- `connectWithUser` in `js/script.js` raises only the current user's own connection count, not
  the target's.
- The mock server's `.edu` test looks at the whole email, local part included.
- The mock server's connect gives +2 to a user who connects to themself.
- In `app/api/auth/route.ts`, an email without '@' makes the validator throw, which gives 500.
  It is not a 400.
- In the same file, the profile lookup answers 401 for every thrown error. That includes a
  failed database connection.
- `handleNewProject` keeps role rows whose name is only white space; only empty names are dropped.

## Model

| member | source | states |
|---|---|---|
| Text.Trim | js/script.js:1233 | `trim` result is empty exactly when the input is all ECMAScript white space, and otherwise neither starts nor ends with white space |
| Text.TrimPadded | js/script.js:959 | trimming a trimmed value padded with white space on both sides gives the value back |
| Text.TrimIdempotent | js/script.js:1054 | trimming twice is trimming once |
| Text.Lower | js/server.js:167-169 | `toLowerCase` maps every A-Z to a-z, keeps the length and leaves every other character alone |
| Text.SplitSecond | lib/index.ts:100 | `split(sep)[1]` is undefined exactly when `sep` does not occur; otherwise it is a `sep`-free field that follows a `sep` in the input |
| Text.SplitSecondOf | lib/index.ts:100 | in `first + sep + second + rest`, where `rest` is empty or starts with `sep`, the second field is `second` |
| Text.ReplaceFirst | app/api/auth/route.ts:69 | `replace` with a string pattern: no occurrence leaves the text unchanged; otherwise the first occurrence, and only it, is replaced by the replacement |
| Schema.ParseVerification | lib/index.ts:34 | a stored name reads back as the verification status with exactly that name |
| Schema.ParseAvailability | lib/index.ts:45 | a stored name reads back as the availability with exactly that name |
| Schema.ParseProjectStatus | lib/index.ts:59 | a stored name reads back as the project status with exactly that name |
| Schema.ParseMessageKind | lib/index.ts:76 | a stored name reads back as the message type with exactly that name |
| Schema.VerificationField | lib/index.ts:34 | absent means `pending`; a present value is accepted iff it is one of pending, verified, rejected |
| Schema.AvailabilityField | lib/index.ts:45 | absent means `available`; a present value is accepted iff it is one of available, busy, away |
| Schema.ProjectStatusField | lib/index.ts:59 | absent means `recruiting`; a present value is accepted iff it is one of recruiting, active, completed, cancelled |
| Schema.MessageKindField | lib/index.ts:76 | absent means `text`; a present value is accepted iff it is one of text, code, file |
| Schema.EnumNamesRoundTrip | lib/index.ts:34-76 | every enum value written out by name reads back as itself |
| Schema.ValidateUniversityEmail | lib/index.ts:99-103 | no '@' gives the throwing case; otherwise the domain (the text between the first '@' and the next '@' or the end) is returned whether or not it is valid, and the email is valid iff the domain contains ".edu" or ends with ".ac.uk" |
| Schema.ValidateWellFormedEmail | lib/index.ts:99-103 | for `local@domain` the validator returns exactly `domain` with the university verdict on it |
| Schema.ValidateStopsAtSecondAt | lib/index.ts:100 | with a second '@' the domain stops there |
| Schema.EduAnywhereInDomainPasses | lib/index.ts:101 | the test is a substring test: any domain containing ".edu" anywhere is accepted |
| MockState.Initial | js/server.js:29-76 | the seeded store (demo user 1, demo project 1, no messages) satisfies the store invariant |
| MockState.TotalConnectionsUpdate | js/server.js:320-321 | replacing one user changes the sum of connections by that user's difference |
| MockHandlers.UserIndex | js/server.js:309-310 | `users.find` by id: the first user with that id, none iff no user has it |
| MockHandlers.ProjectIndex | js/server.js:243 | `projects.find` by id: the first project with that id, none iff no project has it |
| MockHandlers.Register | js/server.js:101-157 | a duplicate email gives 409 before the '.edu' test; a missing '.edu' gives 400; both leave the store unchanged. Success appends exactly one user: id = length + 1, pending verification with the text after '@', zero stats at level 1. An absent password is stored as absent. The reply carries the profile without the password |
| MockHandlers.RegisterAcceptsEduInLocalPart | js/server.js:113 | an address `name.edu@domain` registers whatever the domain: the '.edu' test covers the whole address |
| MockHandlers.Login | js/server.js:80-99 | success iff some user has both the email and the password (an absent password matches a stored absent one); the reply is the first such user's profile and the mock token; every miss is the same 401 |
| MockHandlers.RegisterThenLogin | js/server.js:80-157 | after a successful register, login with the same email and password returns the registered user; with no password sent at either step, the login sends none and still succeeds |
| MockHandlers.CreditOwner | js/server.js:225-229 | the owner gains 1 completed project and 100 xp, and nothing else changes |
| MockHandlers.CreateProject | js/server.js:200-237 | appends one project: id = length + 1, owner from the header (1 by default), status recruiting, owner as only member, no applications. The university is the owner's, else "Unknown University". Only the owner is credited |
| MockHandlers.Apply | js/server.js:239-272 | unknown project 404; repeat applicant 409; both change nothing. Otherwise one pending application is appended to that project only |
| MockHandlers.ApplyTwiceConflicts | js/server.js:253-259 | a second application by the same user is refused with 409 and changes nothing |
| MockHandlers.AddConnections | js/server.js:320-321 | only `stats.connections` moves, by exactly n |
| MockHandlers.Connect | js/server.js:305-328 | 404 with no change unless both users exist; otherwise requester and target each gain one connection and no other user changes |
| MockHandlers.ConnectAddsTwo | js/server.js:320-321 | when both users exist, connect raises the total of all connections by exactly 2 (a self-connect included) |
| MockHandlers.SendMessage | js/server.js:367-382 | only the message's room changes (created if missing); it gains one message numbered length + 1 |
| MockHandlers.RegisterPreservesWellFormed | js/server.js:120-144 | register keeps ids 1..n, unique emails, unique applicants and sequential message ids |
| MockHandlers.CreateProjectPreservesWellFormed | js/server.js:204-229 | create project keeps the store invariant |
| MockHandlers.ApplyPreservesWellFormed | js/server.js:251-266 | apply keeps each user at most once among a project's applicants |
| MockHandlers.ConnectPreservesWellFormed | js/server.js:320-321 | connect keeps the store invariant |
| MockHandlers.SendMessagePreservesWellFormed | js/server.js:370-381 | every room's message ids stay 1..n in arrival order |
| MockQueries.Enrich | js/server.js:182-192 | a successful enrichment has one entry per listed project |
| MockQueries.EnrichSucceedsIffOwnersExist | js/server.js:182-192 | attaching owners succeeds iff every listed project's owner exists: reading a missing owner's fields throws |
| MockQueries.EnrichAttachesOwners | js/server.js:182-192 | the projects keep their order and each gets the view of the first user with its owner id |
| MockQueries.ProjectStagesAreOnePass | js/server.js:165-179 | the three optional project stages, in the handler's order, are one filter by the query |
| MockQueries.FilterProjects | js/server.js:163-179 | the three optional stages equal one filter by the conjunction: an order-preserving subsequence of exactly the projects passing every enabled filter |
| MockQueries.ListProjects | js/server.js:160-198 | 500 iff some filtered project has no owner; otherwise the filtered projects in order, each carrying the id, name and university of the first user with its owner id |
| MockQueries.ListingFailsOnUnknownOwner | js/server.js:183-188 | one listed project with an unknown owner fails the whole listing |
| MockQueries.StagesAreOnePass | js/server.js:280-294 | the three optional user stages are one filter by the enabled conditions |
| MockQueries.UserPipelineIsOnePass | js/server.js:278-292 | dropping user 1 then the three optional stages is one filter by the user query |
| MockQueries.ListedProfilesMatch | js/server.js:278-297 | every listed profile matches the query and every matching user is listed |
| MockQueries.ListUsers | js/server.js:275-303 | exactly the matching users, in store order, never user 1, without passwords |
| MockQueries.PickedProjectsShareSkill | js/server.js:455-462 | every recommended project has a technology among the user's skills, ignoring case |
| MockQueries.PickedBuddiesComplement | js/server.js:477-485 | every recommended buddy is another user with a skill the user lacks, ignoring case |
| MockQueries.RecommendationHolds | js/server.js:455-485 | the projects and buddies picked for the first user with the id are the first 3 of each kind and meet both conditions |
| MockQueries.Recommend | js/server.js:442-496 | 404 iff no user has the id. At most 3 projects, each sharing a technology with the user's skills ignoring case: the first 3 such. At most 3 buddies, never the user, each with a skill the user lacks: the first 3 such. Each picked project carries the id and name of the first user with its owner id |
| MockQueries.RecommendSucceedsIff | js/server.js:442-496 | the reply is Ok iff the user exists and every project picked for the user's skills has an existing owner; a missing owner's fields throw and give 500 |
| ClientApp.FilterProjects | js/script.js:1083-1095 | order-preserving subsequence of exactly the projects whose title, description or some technology includes the lower-cased input, with status equal to the filter unless it is "all", each as often as it occurs in the list |
| ClientApp.UnfilteredProjectsAreAll | js/script.js:1083-1095 | empty search and status "all" show every project |
| ClientApp.RefilteringProjectsIsStable | js/script.js:1083-1095 | filtering the shown list again with the same inputs changes nothing |
| ClientApp.FilterUsers | js/script.js:1156-1168 | order-preserving subsequence of exactly the users matching the search on name, university or skills and holding the exact skill unless the filter is "all", each as often as it occurs in the list |
| ClientApp.SkillFilterIsCaseSensitive | js/script.js:1162 | with a skill selected, every shown user has exactly that skill; a user whose only skill is the selection lower-cased (and different from it) is never shown |
| ClientApp.Buckets | js/script.js:848-856 | each column holds only tasks of its status, in task order |
| ClientApp.BucketsDisjoint | js/script.js:853-855 | no task is in two columns, and a task of any other status is in none |
| ClientApp.BucketsCount | js/script.js:853-855 | the three columns plus the unshown tasks account for every task exactly once |
| ClientApp.BucketedTaskShown | js/script.js:853-855 | a task with a column status appears in that column |
| ClientApp.CollectRoles | js/script.js:965-976 | rows with an empty name are dropped and every named row becomes a role with no skills; the result is empty iff every name is empty |
| ClientApp.CollectRolesFollowRows | js/script.js:965-976 | the roles are exactly one per named row, in row order, each with that row's name and count and no skills |
| ClientApp.CollectedRolesComeFromRows | js/script.js:965-976 | a role is collected iff a row carries its name and count |
| ClientApp.TrimAll | js/script.js:959 | the tech stack is every tag's text, trimmed |
| ClientApp.HandleNewProject | js/script.js:953-1011 | no named role: warning and no change. No current user: the error toast and no change. Otherwise the new project goes first with status recruiting, the user as only member, the user's university and owner. The user's project count rises by 1 and nothing else changes |
| ClientApp.TechStackKey | js/script.js:1050-1062 | only Enter or ',' with a non-blank input adds one tag (the trimmed input) and clears the input; otherwise nothing changes |
| ClientApp.TechStackKeyKeepsTidy | js/script.js:1050-1062 | tags entered through the input stay non-empty and free of surrounding white space |
| ClientApp.TagTextRoundTrip | js/script.js:1064-1080 | tags entered through the input, with no '<' or '&', read back unchanged when the form trims the tags' text |
| ClientApp.SendChat | js/script.js:1231-1248 | blank input, or no one logged in, changes nothing. Otherwise one message with the trimmed text and the current user as sender is appended, and the input is cleared |
| ClientApp.SendChatAppendsOne | js/script.js:1231-1248 | earlier messages are kept and at most one is added, never blank and never padded |
| ClientApp.ConnectWithUser | js/script.js:1296-1316 | no current user or unknown target: no change; otherwise only the current user's connection count rises by 1 |
| ClientApp.NewProjectListedFirst | js/script.js:989-999 | with a fresh id, the created project heads the recruiting list under an empty search and a lookup by its id finds it first and only there |
| ClientApp.ConnectAllCounts | js/script.js:1296-1316 | with someone logged in, n connects to known users raise the current user's count by exactly n and change nothing else |
| ClientApp.ConnectCountsOnce | js/script.js:1306-1308 | with a current user and a known target the count rises by exactly 1 |
| Tokens.BearerToken | app/api/auth/route.ts:69 | no header gives no token; a header without "Bearer " is taken whole |
| Tokens.BearerTokenOf | app/api/projects/route.ts:18 | "Bearer " + token yields the token |
| AuthRoute.FindOne | app/api/auth/route.ts:13 | the lookup behind `findOne({ email })` and `findById` (line 74): the first document whose field has the value, none iff no document has it |
| AuthRoute.Login | app/api/auth/route.ts:4-27 | a missing or empty email or password gives 400 before any lookup. An unknown email and a wrong password give the same 401. A throwing password check or anything else thrown gives 500. A verified password returns the found document without its password, plus the signed token |
| AuthRoute.Register | app/api/auth/route.ts:29-64 | order of checks: incomplete body 400, then no '@' 500, then non-university email 400, then duplicate 409. No failure changes the store. A complete, valid, new email always succeeds unless hashing throws (500); success appends one document: pending verification with the validator's domain, zero stats at level 1 |
| AuthRoute.RegisteredDomainValid | app/api/auth/route.ts:38-51 | a stored domain passed the university rule |
| AuthRoute.RegisterKeepsEmailsUnique | app/api/auth/route.ts:43-53 | registration keeps emails unique |
| AuthRoute.RegisterKeepsIdsUnique | app/api/auth/route.ts:49-53 | with a fresh id, registration keeps ids unique |
| AuthRoute.RegisterThenLogin | app/api/auth/route.ts:4-64 | if the password check accepts a password against its own hash, logging in after registering returns the same reply |
| AuthRoute.Profile | app/api/auth/route.ts:66-84 | no token 401 "No token"; anything thrown, a rejected token or a failed connection included, 401 "Invalid token"; unknown user 404; success returns the token user's document without its password |
| AuthRoute.RegisterThenProfile | app/api/auth/route.ts:55-80 | the registration token, sent back as a bearer token, returns the registered document |
| ProjectsRoute.ListProjects | app/api/projects/route.ts:4-13 | at most 20 documents, the first ones in collection order (all of them when there are fewer); 500 iff the connection fails |
| ProjectsRoute.CreateInput | app/api/projects/route.ts:24-31 | the override fields win over the body, and every other body field is kept |
| ProjectsRoute.OwnershipComesFromToken | app/api/projects/route.ts:26-30 | owner and university come from the token; status is recruiting; the token user is the only member; there are no applications |
| ProjectsRoute.CreateInputIdempotent | app/api/projects/route.ts:24-31 | applying the overrides twice is applying them once |
| ProjectsRoute.CreateProject | app/api/projects/route.ts:15-38 | no token 401 and nothing created; everything thrown (a rejected token, a missing body or a refused document included) 500 and nothing created; a verified token with a body that `create` accepts always gives the created document, appended |
| ProjectsRoute.CreateOnlyAppends | app/api/projects/route.ts:24-33 | creation adds at most one document and changes none |
| Workspace.SendMessage | components/Workspace.tsx:35-47 | nothing is sent when the input is blank after trimming, or there is no user, or no socket. Otherwise the project's text message goes out with the untrimmed input, and the input is cleared |
| Workspace.SecondSendSendsNothing | components/Workspace.tsx:36-46 | a second send without typing sends nothing |
| Workspace.SentContentIsUntrimmed | components/Workspace.tsx:41 | leading white space is kept in the content sent |
| Workspace.OnReceive | components/Workspace.tsx:19-22 | a pushed message is added at the end, and earlier messages are unchanged |
| Workspace.ReceiveAll | components/Workspace.tsx:19-22 | messages pushed one by one appear after the earlier ones in arrival order |
| Workspace.OnHistory | components/Workspace.tsx:24-26 | the fetched history replaces the shown messages |
| Workspace.HistoryOverwritesLiveMessages | components/Workspace.tsx:19-26 | a message pushed before the history arrives is no longer shown unless the history holds it |
| Workspace.AddTask | components/Workspace.tsx:101-109 | a blank title changes nothing; otherwise one todo task with the untrimmed title is appended and the input cleared |
| Workspace.AddTaskAddsOneTodo | components/Workspace.tsx:103-107 | adding a task keeps the earlier tasks and grows the to-do list by one |

## Left out

- Rendering, the DOM, toasts and their timers, modals and hash routing. DOM reads are parameters and DOM writes are results.
- Sockets and rooms: join, leave, broadcast, online users, and the `new-message` emit. Only the store update of `send-message` is modelled.
- The `send-message` handler's owner lookup after storing. For an unknown user it throws, but the message is already stored.
- `GET /api/projects/:id/messages` and `GET /api/dashboard/stats/:userId` in `js/server.js`: they only read the store.
- `Math.random` match scores and the client's fake chat reply. The recommendation reply omits the scores.
- `Date.now()` and MongoDB ids (supplied as parameters), and timestamps.
- The timeline weeks-to-milliseconds arithmetic in `js/server.js`.
- `parseInt` of `year`, of the `user-id` header, of role counts and of the `:id` and `:userId` route parameters (`js/server.js` lines 241, 306 and 443): each is taken as an already-parsed integer. A non-numeric text gives NaN in the source.
- Text.Lower: `toLowerCase` beyond ASCII is not modelled; only A-Z are mapped.
- MockHandlers.Register: an absent name, university or branch is taken as a string, while the source stores `undefined` (a later user search reading it would throw).
- ClientApp.TagTextRoundTrip: HTML parsing of the tag's `innerHTML` is not modelled, so the round trip is stated only for values without '<' or '&'; `a<b>c` would read back as `ac`.
- Non-string JSON values in request bodies. A body that is not an object is also left out.
- Property names such as `__proto__` as room keys.
- MongoDB behaviour: casting and dropping of unknown fields on create, `_id` casting (a malformed id throws in the source and gives 401 on profile fetch), the unique index under concurrent writes, and timestamps.
- bcrypt, jsonwebtoken, Cloudinary, the OpenAI call, `connectDB` caching, `app/api/chat/route.ts` and `app/api/upload/route.ts`.
- AuthRoute.Login: `generateToken` (`jwt.sign`) is taken to succeed; with `JWT_SECRET` unset it throws and the source answers 500.
- AuthRoute.Register: the same holds for its `generateToken` call, and `User.create` is taken to succeed once the password hash is computed.
- Workspace.SendMessage: the socket is present or absent; a socket that is not yet open (where `send` throws) is not modelled.
- MockHandlers.CreateProject: an absent title, description, techStack, requiredRoles or vibe is taken as present, while the source stores `undefined`. A stored project without `techStack` makes every later recommendation for an existing user throw (500). One without title, description or techStack makes every search listing that reaches it throw (500). MockQueries.RecommendSucceedsIff and MockQueries.ListProjects do not describe such a store.
- MockHandlers.Apply: an absent userId or message is taken as present; the source stores `undefined`, so a second apply without a userId gets 409.
- MockHandlers.SendMessage: an absent projectId, userId or message is taken as present; the source stores `undefined` fields in a room keyed "undefined".
- ProjectsRoute.CreateProject: the stored document is whatever the `create` oracle returns; the schema's required fields and enums for projects are not checked against it.
- `context.tsx`, the pages and the other components: they only pass data between the handlers and the screen.

=== FILE: auth_route.dfy ===
/** The authentication handlers of the Next.js backend (app/api/auth/route.ts): login (POST),
    registration (PUT) and profile lookup (GET). The database is a list of user documents in
    insertion order; the database connection, password hashing and token signing are oracles. */
module AuthRoute {
  import opened Common
  import opened Seqs
  import opened Text
  import opened Tokens
  import opened Schema

  datatype DbVerification = DbVerification(status: VerificationStatus, universityDomain: string)

  datatype DbStats = DbStats(xp: int, level: int, completedProjects: int, rating: int, connections: int)

  /** A user document without its password: what `toObject()` gives once `password` is deleted. */
  datatype UserData = UserData(
    id: string,
    email: string,
    name: string,
    university: string,
    branch: string,
    year: int,
    skills: seq<string>,
    interests: seq<string>,
    badges: seq<string>,
    verification: DbVerification,
    stats: DbStats,
    availability: Availability)

  datatype DbUser = DbUser(password: string, data: UserData)

  /** The libraries the handlers call: whether `connectDB` succeeds, bcrypt and jsonwebtoken. */
  datatype Oracles = Oracles(
    dbUp: bool,
    verifyPassword: (string, string) -> Outcome<bool>,
    hashPassword: string -> Outcome<string>,
    sign: Payload -> string,
    verify: string -> Outcome<Payload>)

  datatype Session = Session(user: UserData, token: string)

  /** The fields of a request body; a missing field is None. Values of another JSON type than the
      field's are not modelled. */
  datatype LoginBody = LoginBody(email: Option<string>, password: Option<string>)

  datatype RegisterBody = RegisterBody(
    email: Option<string>,
    password: Option<string>,
    name: Option<string>,
    university: Option<string>,
    branch: Option<string>,
    year: Option<int>)

  /** What a mutating handler produces: the reply and the collection afterwards. */
  datatype Stored<+T> = Stored(reply: Reply<T>, next: seq<DbUser>)

  /** `findOne` / `findById` on one field: the first document whose field has the value. */
  function FindOne(store: seq<DbUser>, field: UserData -> string, value: string): (r: Option<nat>)
    ensures r.Some? ==> r.value < |store| && field(store[r.value].data) == value
    ensures r.Some? ==> forall j :: 0 <= j < r.value ==> field(store[j].data) != value
    ensures r.None? <==> forall i :: 0 <= i < |store| ==> field(store[i].data) != value
  {
    FirstIndex(store, (u: DbUser) => field(u.data) == value)
  }

  /** `findOne({ email })`. */
  function FindByEmail(store: seq<DbUser>, email: string): Option<nat> {
    FindOne(store, (d: UserData) => d.email, email)
  }

  /** `findById(id)`. */
  function FindById(store: seq<DbUser>, id: string): Option<nat> {
    FindOne(store, (d: UserData) => d.id, id)
  }

  function PayloadOf(d: UserData): Payload {
    Payload(d.id, d.email, d.university)
  }

  const CredentialsRequired := "Email and password required"
  const InvalidCredentials := "Invalid credentials"

  /** POST: a missing or empty email or password is refused before any lookup; an unknown email
      and a wrong password get the same 401; anything that throws gives 500. */
  function Login(env: Oracles, store: seq<DbUser>, body: Option<LoginBody>): (r: Reply<Session>)
    ensures !env.dbUp || body.None? ==> r == Fail(500, InternalError)
    ensures (env.dbUp && body.Some? && !(Truthy(body.value.email) && Truthy(body.value.password)))
              ==> r == Fail(400, CredentialsRequired)
    ensures r.Fail? ==> r.code in {400, 401, 500}
    ensures r.Fail? && r.code == 401 ==> r.message == InvalidCredentials
    ensures (env.dbUp && body.Some? && Truthy(body.value.email) && Truthy(body.value.password)
              && FindByEmail(store, body.value.email.value).None?) ==> r == Fail(401, InvalidCredentials)
    ensures (env.dbUp && body.Some? && Truthy(body.value.email) && Truthy(body.value.password)
              && FindByEmail(store, body.value.email.value).Some?) ==>
              var i := FindByEmail(store, body.value.email.value).value;
              var checked := env.verifyPassword(body.value.password.value, store[i].password);
              && (checked == Returns(false) ==> r == Fail(401, InvalidCredentials))
              && (checked == Throws ==> r == Fail(500, InternalError))
              && (checked == Returns(true) ==> r == Ok(Session(store[i].data, env.sign(PayloadOf(store[i].data)))))
    ensures r.Ok? ==>
              && env.dbUp && body.Some?
              && exists i ::
                   && 0 <= i < |store|
                   && i == FindByEmail(store, body.value.email.value).value
                   && env.verifyPassword(body.value.password.value, store[i].password) == Returns(true)
                   && r.value == Session(store[i].data, env.sign(PayloadOf(store[i].data)))
  {
    if !env.dbUp then Fail(500, InternalError)
    else match body
      case None => Fail(500, InternalError)
      case Some(b) =>
        if !(Truthy(b.email) && Truthy(b.password)) then Fail(400, CredentialsRequired)
        else match FindByEmail(store, b.email.value)
          case None => Fail(401, InvalidCredentials)
          case Some(i) =>
            match env.verifyPassword(b.password.value, store[i].password)
            case Throws => Fail(500, InternalError)
            case Returns(false) => Fail(401, InvalidCredentials)
            case Returns(true) => Ok(Session(store[i].data, env.sign(PayloadOf(store[i].data))))
  }

  /** JavaScript truthiness of a numeric field: absent and 0 are falsy. */
  predicate TruthyNumber(o: Option<int>) {
    o.Some? && o.value != 0
  }

  /** Every one of the six registration fields is present and truthy. */
  predicate Complete(b: RegisterBody) {
    Truthy(b.email) && Truthy(b.password) && Truthy(b.name) && Truthy(b.university) && Truthy(b.branch)
    && TruthyNumber(b.year)
  }

  /** The document `User.create` stores for a new registration: pending verification with the
      validator's domain, zeroed statistics at level 1, and the schema's defaults elsewhere. */
  function NewUserData(id: string, b: RegisterBody, domain: string): UserData
    requires Complete(b)
  {
    UserData(id, b.email.value, b.name.value, b.university.value, b.branch.value, b.year.value,
             [], [], [], DbVerification(Pending, domain), DbStats(0, 1, 0, 0, 0), Available)
  }

  const AllFieldsRequired := "All fields required"
  const UniversityEmailRequired := "Valid university email required"
  const UserExists := "User already exists"

  /** No two documents share an email (the schema's unique index). */
  predicate EmailsUnique(store: seq<DbUser>) {
    forall i, j :: 0 <= i < j < |store| ==> store[i].data.email != store[j].data.email
  }

  /** PUT with the new document's id supplied. Incomplete bodies are refused first, then an email
      that is not a university email (before any lookup), then a duplicate. An email without '@'
      makes the validator throw: 500. Only a 200 changes the collection, by appending one
      document. */
  function Register(env: Oracles, store: seq<DbUser>, body: Option<RegisterBody>, freshId: string): (st: Stored<Session>)
    ensures st.reply.Fail? ==> st.next == store
    ensures !env.dbUp || body.None? ==> st.reply == Fail(500, InternalError)
    ensures env.dbUp && body.Some? && !Complete(body.value) ==> st.reply == Fail(400, AllFieldsRequired)
    ensures env.dbUp && body.Some? && Complete(body.value) ==>
              var check := ValidateUniversityEmail(body.value.email.value);
              && (check.None? ==> st.reply == Fail(500, InternalError))
              && (check.Some? && !check.value.isValid ==> st.reply == Fail(400, UniversityEmailRequired))
              && ((check.Some? && check.value.isValid && FindByEmail(store, body.value.email.value).Some?)
                    ==> st.reply == Fail(409, UserExists))
    ensures (env.dbUp && body.Some? && Complete(body.value)
              && ValidateUniversityEmail(body.value.email.value).Some?
              && ValidateUniversityEmail(body.value.email.value).value.isValid
              && FindByEmail(store, body.value.email.value).None?) ==>
              var hashed := env.hashPassword(body.value.password.value);
              && (hashed.Throws? ==> st.reply == Fail(500, InternalError))
              && (hashed.Returns? ==>
                    var data := NewUserData(freshId, body.value, ValidateUniversityEmail(body.value.email.value).value.domain);
                    && st.reply == Ok(Session(data, env.sign(PayloadOf(data))))
                    && st.next == store + [DbUser(hashed.value, data)])
    ensures st.reply.Ok? ==>
              && body.Some? && Complete(body.value)
              && FindByEmail(store, body.value.email.value).None?
              && env.hashPassword(body.value.password.value).Returns?
              && var check := ValidateUniversityEmail(body.value.email.value);
              && check.Some? && check.value.isValid
              && var data := NewUserData(freshId, body.value, check.value.domain);
              && st.next == store + [DbUser(env.hashPassword(body.value.password.value).value, data)]
              && st.reply == Ok(Session(data, env.sign(PayloadOf(data))))
  {
    if !env.dbUp then Stored(Fail(500, InternalError), store)
    else match body
      case None => Stored(Fail(500, InternalError), store)
      case Some(b) =>
        if !Complete(b) then Stored(Fail(400, AllFieldsRequired), store)
        else match ValidateUniversityEmail(b.email.value)
          case None => Stored(Fail(500, InternalError), store)
          case Some(check) =>
            if !check.isValid then Stored(Fail(400, UniversityEmailRequired), store)
            else if FindByEmail(store, b.email.value).Some? then Stored(Fail(409, UserExists), store)
            else match env.hashPassword(b.password.value)
              case Throws => Stored(Fail(500, InternalError), store)
              case Returns(hash) =>
                var data := NewUserData(freshId, b, check.domain);
                Stored(Ok(Session(data, env.sign(PayloadOf(data)))), store + [DbUser(hash, data)])
  }

  /** A stored domain is never empty: it passed the university rule. */
  lemma RegisteredDomainValid(env: Oracles, store: seq<DbUser>, body: Option<RegisterBody>, freshId: string)
    ensures var st := Register(env, store, body, freshId);
            st.reply.Ok? ==> UniversityDomain(st.reply.value.user.verification.universityDomain)
  {
  }

  /** Registration keeps emails unique. */
  lemma RegisterKeepsEmailsUnique(env: Oracles, store: seq<DbUser>, body: Option<RegisterBody>, freshId: string)
    requires EmailsUnique(store)
    ensures EmailsUnique(Register(env, store, body, freshId).next)
  {
  }

  /** Whoever registers can log in with the same email and password, getting the stored document
      back (given a password check that accepts the password against its own hash). */
  lemma RegisterThenLogin(env: Oracles, store: seq<DbUser>, b: RegisterBody, freshId: string)
    requires Register(env, store, Some(b), freshId).reply.Ok?
    requires forall h :: env.hashPassword(b.password.value) == Returns(h) ==> env.verifyPassword(b.password.value, h) == Returns(true)
    ensures var st := Register(env, store, Some(b), freshId);
            Login(env, st.next, Some(LoginBody(b.email, b.password))) == st.reply
  {
    var st := Register(env, store, Some(b), freshId);
    FirstIndexAppend(store, st.next[|store|], (u: DbUser) => u.data.email == b.email.value);
    assert st.next[..|store|] == store;
  }

  const NoToken := "No token"
  const InvalidToken := "Invalid token"
  const UserNotFound := "User not found"

  /** GET: the profile of the token's user. Everything that throws, including a failed
      connection and a rejected token, is answered 401 "Invalid token". */
  function Profile(env: Oracles, store: seq<DbUser>, authorization: Option<string>): (r: Reply<UserData>)
    ensures !env.dbUp ==> r == Fail(401, InvalidToken)
    ensures env.dbUp && !Truthy(BearerToken(authorization)) ==> r == Fail(401, NoToken)
    ensures r.Fail? ==> r.code == 401 || r == Fail(404, UserNotFound)
    ensures r.Ok? ==> Truthy(BearerToken(authorization)) && env.dbUp
                      && env.verify(BearerToken(authorization).value).Returns?
                      && exists i :: 0 <= i < |store| && store[i].data == r.value
                           && store[i].data.id == env.verify(BearerToken(authorization).value).value.userId
    ensures (env.dbUp && Truthy(BearerToken(authorization)) && env.verify(BearerToken(authorization).value).Throws?)
              ==> r == Fail(401, InvalidToken)
    ensures (env.dbUp && Truthy(BearerToken(authorization)) && env.verify(BearerToken(authorization).value).Returns?) ==>
              var found := FindById(store, env.verify(BearerToken(authorization).value).value.userId);
              && (found.None? ==> r == Fail(404, UserNotFound))
              && (found.Some? ==> r == Ok(store[found.value].data))
  {
    if !env.dbUp then Fail(401, InvalidToken)
    else
      var token := BearerToken(authorization);
      if !Truthy(token) then Fail(401, NoToken)
      else match env.verify(token.value)
        case Throws => Fail(401, InvalidToken)
        case Returns(payload) =>
          match FindById(store, payload.userId)
          case None => Fail(404, UserNotFound)
          case Some(i) => Ok(store[i].data)
  }

  /** Ids are unique. */
  predicate IdsUnique(store: seq<DbUser>) {
    forall i, j :: 0 <= i < j < |store| ==> store[i].data.id != store[j].data.id
  }

  /** With a fresh id, registration keeps ids unique. */
  lemma RegisterKeepsIdsUnique(env: Oracles, store: seq<DbUser>, body: Option<RegisterBody>, freshId: string)
    requires IdsUnique(store)
    requires forall i :: 0 <= i < |store| ==> store[i].data.id != freshId
    ensures IdsUnique(Register(env, store, body, freshId).next)
  {
  }

  /** The token handed out at registration, sent back as a bearer token, returns the registered
      document (given a token check that accepts what signing produced and a fresh id). */
  lemma RegisterThenProfile(env: Oracles, store: seq<DbUser>, b: RegisterBody, freshId: string)
    requires forall i :: 0 <= i < |store| ==> store[i].data.id != freshId
    requires Register(env, store, Some(b), freshId).reply.Ok?
    requires var s := Register(env, store, Some(b), freshId).reply.value;
             s.token != "" && env.verify(s.token) == Returns(PayloadOf(s.user))
    ensures var st := Register(env, store, Some(b), freshId);
            Profile(env, st.next, Some("Bearer " + st.reply.value.token)) == Ok(st.reply.value.user)
  {
    var st := Register(env, store, Some(b), freshId);
    BearerTokenOf(st.reply.value.token);
    FirstIndexAppend(store, st.next[|store|], (u: DbUser) => u.data.id == freshId);
    assert st.next[..|store|] == store;
  }
}

=== FILE: client_app.dfy ===
/** The client-side rules of the single-page application (js/script.js): the project and user
    search filters, the task-board buckets, new-project role collection and creation, the chat
    send guard, tech-tag entry and the connect guard. DOM reads become parameters, DOM writes
    and toasts become results. */
module ClientApp {
  import opened Common
  import opened Seqs
  import opened Text

  datatype ClientStats = ClientStats(projects: int, connections: int)

  datatype ClientUser = ClientUser(id: int, name: string, university: string, skills: seq<string>, stats: ClientStats)

  /** The `{ id, name }` pair a project names as its owner and a chat message as its sender. */
  datatype Person = Person(id: int, name: string)

  datatype ClientRole = ClientRole(role: string, count: int, skills: seq<string>)

  datatype ClientProject = ClientProject(
    id: int,
    title: string,
    description: string,
    techStack: seq<string>,
    timeline: string,
    vibe: string,
    requiredRoles: seq<ClientRole>,
    owner: Person,
    status: string,
    teamMembers: seq<int>,
    university: string)

  datatype ChatMessage = ChatMessage(id: int, sender: Person, message: string)

  datatype Task = Task(id: int, title: string, status: string)

  /** The application object's state: who is logged in and the lists the pages show. */
  datatype App = App(
    currentUser: Option<ClientUser>,
    projects: seq<ClientProject>,
    users: seq<ClientUser>,
    chatMessages: seq<ChatMessage>,
    tasks: seq<Task>)

  /** A toast: its kind and text. */
  datatype Notice = Success(text: string) | Warning(text: string) | Failure(text: string)

  // ---------------------------------------------------------------- search filters

  function ProjectTexts(p: ClientProject): seq<string> {
    [p.title, p.description] + p.techStack
  }

  /** A project is shown when its title, description or some technology includes the
      lower-cased search input, and its status equals the status filter unless that is "all". */
  predicate ProjectShown(p: ClientProject, searchInput: string, statusFilter: string) {
    && SomeTextIncludes(ProjectTexts(p), Lower(searchInput))
    && (statusFilter == "all" || p.status == statusFilter)
  }

  function ShowsProject(searchInput: string, statusFilter: string): ClientProject -> bool {
    (p: ClientProject) => ProjectShown(p, searchInput, statusFilter)
  }

  /** `filterProjects`: the search term is the input lower-cased, not trimmed. */
  function FilterProjects(ps: seq<ClientProject>, searchInput: string, statusFilter: string): (r: seq<ClientProject>)
    ensures Subseq(r, ps)
    ensures forall i :: 0 <= i < |r| ==> ProjectShown(r[i], searchInput, statusFilter)
    ensures forall i :: 0 <= i < |ps| && ProjectShown(ps[i], searchInput, statusFilter) ==> ps[i] in r
    ensures forall p :: multiset(r)[p] == if ProjectShown(p, searchInput, statusFilter) then multiset(ps)[p] else 0
  {
    FilterCounts(ps, ShowsProject(searchInput, statusFilter));
    Filter(ps, ShowsProject(searchInput, statusFilter))
  }

  /** The empty string is included in every title, so an empty search keeps every project. */
  lemma EmptySearchMatchesEveryProject(p: ClientProject)
    ensures SomeTextIncludes(ProjectTexts(p), Lower(""))
  {
    assert Contains(Lower(ProjectTexts(p)[0]), "");
  }

  /** With an empty search box and the status filter on "all" the list is shown unchanged. */
  lemma UnfilteredProjectsAreAll(ps: seq<ClientProject>)
    ensures FilterProjects(ps, "", "all") == ps
  {
    forall i | 0 <= i < |ps| ensures ShowsProject("", "all")(ps[i]) {
      EmptySearchMatchesEveryProject(ps[i]);
    }
    FilterKeepsAll(ps, ShowsProject("", "all"));
  }

  /** Filtering the filtered list again with the same inputs changes nothing. */
  lemma RefilteringProjectsIsStable(ps: seq<ClientProject>, searchInput: string, statusFilter: string)
    ensures FilterProjects(FilterProjects(ps, searchInput, statusFilter), searchInput, statusFilter)
         == FilterProjects(ps, searchInput, statusFilter)
  {
    FilterIdempotent(ps, ShowsProject(searchInput, statusFilter));
  }

  function UserTexts(u: ClientUser): seq<string> {
    [u.name, u.university] + u.skills
  }

  /** A user is shown when name, university or some skill includes the lower-cased search
      input, and the skill filter is "all" or exactly (case-sensitively) one of the skills. */
  predicate UserShown(u: ClientUser, searchInput: string, skillFilter: string) {
    && SomeTextIncludes(UserTexts(u), Lower(searchInput))
    && (skillFilter == "all" || skillFilter in u.skills)
  }

  function ShowsUser(searchInput: string, skillFilter: string): ClientUser -> bool {
    (u: ClientUser) => UserShown(u, searchInput, skillFilter)
  }

  /** `filterUsers`. */
  function FilterUsers(us: seq<ClientUser>, searchInput: string, skillFilter: string): (r: seq<ClientUser>)
    ensures Subseq(r, us)
    ensures forall i :: 0 <= i < |r| ==> UserShown(r[i], searchInput, skillFilter)
    ensures forall i :: 0 <= i < |us| && UserShown(us[i], searchInput, skillFilter) ==> us[i] in r
    ensures forall u :: multiset(r)[u] == if UserShown(u, searchInput, skillFilter) then multiset(us)[u] else 0
  {
    FilterCounts(us, ShowsUser(searchInput, skillFilter));
    Filter(us, ShowsUser(searchInput, skillFilter))
  }

  /** The skill filter is case-sensitive: with a skill other than "all" selected, every user shown
      has exactly that skill, so a user whose only skill is the selection lower-cased (and differs
      from it) is never shown, even though the search box ignores case. */
  lemma SkillFilterIsCaseSensitive(us: seq<ClientUser>, searchInput: string, skill: string)
    requires skill != "all"
    ensures forall u :: u in FilterUsers(us, searchInput, skill) ==> skill in u.skills
    ensures Lower(skill) != skill ==>
              forall u :: u in us && u.skills == [Lower(skill)] ==> u !in FilterUsers(us, searchInput, skill)
  {
  }

  // ---------------------------------------------------------------- task board

  predicate HasStatus(t: Task, status: string) {
    t.status == status
  }

  function WithStatus(status: string): Task -> bool {
    (t: Task) => HasStatus(t, status)
  }

  /** A task the board does not show: its status is none of the three columns. */
  function Unbucketed(): Task -> bool {
    (t: Task) => t.status != "todo" && t.status != "in-progress" && t.status != "done"
  }

  datatype Board = Board(todo: seq<Task>, inProgress: seq<Task>, done: seq<Task>)

  /** `loadTasks`: the three columns, each in task order. */
  function Buckets(tasks: seq<Task>): (b: Board)
    ensures forall i :: 0 <= i < |b.todo| ==> b.todo[i].status == "todo"
    ensures forall i :: 0 <= i < |b.inProgress| ==> b.inProgress[i].status == "in-progress"
    ensures forall i :: 0 <= i < |b.done| ==> b.done[i].status == "done"
    ensures Subseq(b.todo, tasks) && Subseq(b.inProgress, tasks) && Subseq(b.done, tasks)
  {
    Board(Filter(tasks, WithStatus("todo")), Filter(tasks, WithStatus("in-progress")),
          Filter(tasks, WithStatus("done")))
  }

  /** No task is in two columns, and a task of any other status (such as "review") is in none. */
  lemma BucketsDisjoint(tasks: seq<Task>, t: Task)
    ensures var b := Buckets(tasks);
            && !(t in b.todo && t in b.inProgress)
            && !(t in b.todo && t in b.done)
            && !(t in b.inProgress && t in b.done)
            && (Unbucketed()(t) ==> t !in b.todo && t !in b.inProgress && t !in b.done)
  {
  }

  /** Every task with a column status is shown exactly once: the three columns and the
      unshown tasks together account for every task. */
  lemma {:induction false} BucketsCount(tasks: seq<Task>)
    ensures var b := Buckets(tasks);
            |b.todo| + |b.inProgress| + |b.done| + |Filter(tasks, Unbucketed())| == |tasks|
  {
    if tasks != [] {
      BucketsCount(tasks[1..]);
    }
  }

  /** A task whose status is one of the three columns is shown in its column. */
  lemma BucketedTaskShown(tasks: seq<Task>, i: nat)
    requires i < |tasks|
    ensures var b := Buckets(tasks);
            && (tasks[i].status == "todo" ==> tasks[i] in b.todo)
            && (tasks[i].status == "in-progress" ==> tasks[i] in b.inProgress)
            && (tasks[i].status == "done" ==> tasks[i] in b.done)
  {
    assert WithStatus(tasks[i].status)(tasks[i]);
  }

  // ---------------------------------------------------------------- new project

  /** One `.role-input` row as read from the form; the count is the already-parsed number. */
  datatype RoleRow = RoleRow(name: string, count: int)

  predicate Named(row: RoleRow) {
    row.name != ""
  }

  /** The role-collection loop: rows whose name is empty are skipped (a name of spaces is kept),
      every other row becomes a role with no skills. */
  function CollectRoles(rows: seq<RoleRow>): (r: seq<ClientRole>)
    ensures |r| <= |rows|
    ensures r == [] <==> forall i :: 0 <= i < |rows| ==> !Named(rows[i])
    ensures forall i :: 0 <= i < |r| ==> r[i].role != "" && r[i].skills == []
    ensures forall i :: 0 <= i < |rows| && Named(rows[i]) ==> ClientRole(rows[i].name, rows[i].count, []) in r
  {
    if rows == [] then []
    else
      var rest := CollectRoles(rows[1..]);
      if Named(rows[0]) then
        [ClientRole(rows[0].name, rows[0].count, [])] + rest
      else
        assert forall i :: 1 <= i < |rows| ==> rows[i] == rows[1..][i - 1];
        rest
  }

  /** The role a named row becomes. */
  function RoleOf(row: RoleRow): ClientRole {
    ClientRole(row.name, row.count, [])
  }

  function IsNamed(): RoleRow -> bool {
    (row: RoleRow) => Named(row)
  }

  /** The roles of the given rows, one per row, in order. */
  function RolesOf(rs: seq<RoleRow>): (r: seq<ClientRole>)
    ensures |r| == |rs| && forall i :: 0 <= i < |rs| ==> r[i] == RoleOf(rs[i])
  {
    seq(|rs|, i requires 0 <= i < |rs| => RoleOf(rs[i]))
  }

  /** One role per named row, in the rows' order: the loop pushes as it goes. */
  lemma {:induction false} CollectRolesFollowRows(rows: seq<RoleRow>)
    ensures CollectRoles(rows) == RolesOf(Filter(rows, IsNamed()))
    decreases |rows|
  {
    if rows != [] {
      CollectRolesFollowRows(rows[1..]);
      CollectRolesStep(rows);
      var rest := Filter(rows[1..], IsNamed());
      if Named(rows[0]) {
        assert Filter(rows, IsNamed()) == [rows[0]] + rest;
        RolesOfCons(rows[0], rest);
      } else {
        assert Filter(rows, IsNamed()) == rest;
      }
    }
  }

  lemma CollectRolesStep(rows: seq<RoleRow>)
    requires rows != []
    ensures Named(rows[0]) ==> CollectRoles(rows) == [RoleOf(rows[0])] + CollectRoles(rows[1..])
    ensures !Named(rows[0]) ==> CollectRoles(rows) == CollectRoles(rows[1..])
  {
  }

  lemma RolesOfCons(row: RoleRow, rest: seq<RoleRow>)
    ensures RolesOf([row] + rest) == [RoleOf(row)] + RolesOf(rest)
  {
    assert forall i :: 1 <= i <= |rest| ==> ([row] + rest)[i] == rest[i - 1];
  }

  /** A role is collected exactly when some row carries its name and count. */
  lemma {:induction false} CollectedRolesComeFromRows(rows: seq<RoleRow>, role: ClientRole)
    ensures role in CollectRoles(rows)
        <==> role.skills == [] && role.role != "" && RoleRow(role.role, role.count) in rows
  {
    if rows != [] {
      CollectedRolesComeFromRows(rows[1..], role);
      assert rows == [rows[0]] + rows[1..];
    }
  }

  /** The markup a tech tag's `innerHTML` receives, with the button's markup left out: the value
      between the template's line breaks and indentation. For a value with no '<' or '&' this is
      also the text the tag shows (the button contributes only white space). */
  function TagText(tech: string): string {
    TagLead + tech + TagTail
  }

  const TagLead := "\n            "
  const TagTail := "\n            \n                \n            \n        "

  /** Line breaks and spaces only. */
  predicate Blank(s: string) {
    forall i :: 0 <= i < |s| ==> s[i] == ' ' || s[i] == '\n'
  }

  /** The template's padding around a tag's value is white space. */
  lemma TagPaddingIsSpace()
    ensures AllSpace(TagLead) && AllSpace(TagTail)
  {
    assert Blank(TagLead) && Blank(TagTail);
  }

  /** `.tag` text contents, trimmed: the tech stack the form submits. */
  function TrimAll(texts: seq<string>): (r: seq<string>)
    ensures |r| == |texts|
    ensures forall i :: 0 <= i < |texts| ==> r[i] == Trim(texts[i])
  {
    seq(|texts|, i requires 0 <= i < |texts| => Trim(texts[i]))
  }

  /** The new-project form after the DOM reads. */
  datatype ProjectForm = ProjectForm(
    title: string,
    description: string,
    tagTexts: seq<string>,
    timeline: string,
    vibe: string,
    roleRows: seq<RoleRow>)

  datatype Outcome = Outcome(app: App, notice: Notice)

  const NeedRole := "Please add at least one required role"
  const CreateFailed := "Failed to create project. Please try again."
  const Created := "Project created successfully!"

  /** `handleNewProject` with the `Date.now()` id supplied. Without a named role it warns and
      changes nothing; with no one logged in, reading the current user throws inside the `try`
      and the error toast is shown with nothing changed; otherwise the project goes to the front
      of the list and the current user's project count rises by one. */
  function HandleNewProject(app: App, form: ProjectForm, freshId: int): (r: Outcome)
    ensures CollectRoles(form.roleRows) == [] ==> r == Outcome(app, Warning(NeedRole))
    ensures CollectRoles(form.roleRows) != [] && app.currentUser.None? ==> r == Outcome(app, Failure(CreateFailed))
    ensures r.notice.Success? ==> r.notice == Success(Created) && app.currentUser.Some?
    ensures r.notice.Success? <==> CollectRoles(form.roleRows) != [] && app.currentUser.Some?
    ensures r.notice.Success? ==>
              var u := app.currentUser.value;
              && |r.app.projects| == |app.projects| + 1
              && r.app.projects[1..] == app.projects
              && r.app.projects[0].id == freshId
              && r.app.projects[0].status == "recruiting"
              && r.app.projects[0].teamMembers == [u.id]
              && r.app.projects[0].university == u.university
              && r.app.projects[0].owner == Person(u.id, u.name)
              && r.app.projects[0].requiredRoles == CollectRoles(form.roleRows)
              && r.app.projects[0].techStack == TrimAll(form.tagTexts)
              && r.app.currentUser == Some(u.(stats := u.stats.(projects := u.stats.projects + 1)))
              && r.app.users == app.users && r.app.chatMessages == app.chatMessages && r.app.tasks == app.tasks
  {
    var roles := CollectRoles(form.roleRows);
    if roles == [] then Outcome(app, Warning(NeedRole))
    else match app.currentUser
      case None => Outcome(app, Failure(CreateFailed))
      case Some(u) =>
        var p := ClientProject(freshId, form.title, form.description, TrimAll(form.tagTexts), form.timeline,
                               form.vibe, roles, Person(u.id, u.name), "recruiting", [u.id], u.university);
        var u' := u.(stats := u.stats.(projects := u.stats.projects + 1));
        Outcome(app.(projects := [p] + app.projects, currentUser := Some(u')), Success(Created))
  }

  /** A created project heads the recruiting list shown with an empty search, and looking it up
      by its id finds it (ids from `Date.now()` are fresh). */
  lemma NewProjectListedFirst(app: App, form: ProjectForm, freshId: int)
    requires CollectRoles(form.roleRows) != [] && app.currentUser.Some?
    requires forall i :: 0 <= i < |app.projects| ==> app.projects[i].id != freshId
    ensures var ps := HandleNewProject(app, form, freshId).app.projects;
            && FilterProjects(ps, "", "recruiting") != []
            && FilterProjects(ps, "", "recruiting")[0] == ps[0]
            && FirstIndex(ps, (p: ClientProject) => p.id == freshId) == Some(0)
            && forall i :: 0 < i < |ps| ==> ps[i].id != freshId
  {
    var ps := HandleNewProject(app, form, freshId).app.projects;
    EmptySearchMatchesEveryProject(ps[0]);
    assert ShowsProject("", "recruiting")(ps[0]);
    assert FilterProjects(ps, "", "recruiting") == [ps[0]] + Filter(ps[1..], ShowsProject("", "recruiting"));
    forall i | 0 < i < |ps| ensures ps[i].id != freshId {
      assert ps[i] == app.projects[i - 1];
    }
  }

  // ---------------------------------------------------------------- tech tags

  /** The tag list being built and the text in the tech input. */
  datatype TagField = TagField(tags: seq<string>, input: string)

  /** Every tag is non-empty and carries no surrounding white space. */
  predicate Tidy(tags: seq<string>) {
    forall i :: 0 <= i < |tags| ==> Trimmed(tags[i])
  }

  /** Non-empty, and neither starts nor ends with white space. */
  predicate Trimmed(t: string) {
    t != [] && !IsSpace(t[0]) && !IsSpace(t[|t| - 1])
  }

  /** `handleTechStackInput`: Enter or ',' with a non-blank input adds its trimmed text and clears
      the input; any other key, or a blank input, changes nothing. */
  function TechStackKey(f: TagField, key: string): (r: TagField)
    ensures (key == "Enter" || key == ",") && Trim(f.input) != "" ==> r == TagField(f.tags + [Trim(f.input)], "")
    ensures !((key == "Enter" || key == ",") && Trim(f.input) != "") ==> r == f
  {
    var value := Trim(f.input);
    if (key == "Enter" || key == ",") && value != "" then TagField(f.tags + [value], "")
    else f
  }

  /** Tags entered through the input stay non-empty and free of surrounding white space. */
  lemma TechStackKeyKeepsTidy(f: TagField, key: string)
    requires Tidy(f.tags)
    ensures Tidy(TechStackKey(f, key).tags)
  {
    var value := Trim(f.input);
    var r := TechStackKey(f, key);
    if (key == "Enter" || key == ",") && value != "" {
      assert r.tags == f.tags + [value];
      assert Trimmed(value);
      TidyAppend(f.tags, value);
    } else {
      assert r == f;
    }
  }

  lemma TidyAppend(tags: seq<string>, v: string)
    requires Tidy(tags) && Trimmed(v)
    ensures Tidy(tags + [v])
  {
    var t := tags + [v];
    forall i | 0 <= i < |t| ensures Trimmed(t[i]) {
      if i < |tags| { assert t[i] == tags[i]; } else { assert t[i] == v; }
    }
  }

  /** The value's characters survive HTML parsing as text: no tag opens and no entity starts. */
  predicate PlainText(t: string) {
    '<' !in t && '&' !in t
  }

  /** A tag entered through the input reads back unchanged when the form collects the tags' text
      and trims it, for values the HTML parser leaves as they are. */
  lemma TagTextRoundTrip(tags: seq<string>)
    requires Tidy(tags)
    requires forall i :: 0 <= i < |tags| ==> PlainText(tags[i])
    ensures TrimAll(seq(|tags|, i requires 0 <= i < |tags| => TagText(tags[i]))) == tags
  {
    var texts := seq(|tags|, i requires 0 <= i < |tags| => TagText(tags[i]));
    forall i | 0 <= i < |tags| ensures Trim(texts[i]) == tags[i] {
      assert Trimmed(tags[i]);
      TagPaddingIsSpace();
      TrimPadded(TagLead, tags[i], TagTail);
    }
  }

  // ---------------------------------------------------------------- chat

  /** The chat log and the text in the chat input. */
  datatype ChatBox = ChatBox(app: App, input: string)

  /** `sendMessage` (the simulated reply aside) with the `Date.now()` id supplied. A blank input
      is ignored. With no one logged in, reading the sender throws before anything is pushed. */
  function SendChat(app: App, input: string, freshId: int): (r: ChatBox)
    ensures Trim(input) == "" || app.currentUser.None? ==> r == ChatBox(app, input)
    ensures Trim(input) != "" && app.currentUser.Some? ==>
              && r.input == ""
              && r.app == app.(chatMessages := app.chatMessages
                   + [ChatMessage(freshId, Person(app.currentUser.value.id, app.currentUser.value.name), Trim(input))])
  {
    var message := Trim(input);
    if message == "" then ChatBox(app, input)
    else match app.currentUser
      case None => ChatBox(app, input)
      case Some(u) =>
        ChatBox(app.(chatMessages := app.chatMessages + [ChatMessage(freshId, Person(u.id, u.name), message)]), "")
  }

  /** Sending keeps the earlier messages and adds at most one, which is never blank and never
      starts or ends with white space. */
  lemma SendChatAppendsOne(app: App, input: string, freshId: int)
    ensures var r := SendChat(app, input, freshId).app;
            && r.chatMessages[..|app.chatMessages|] == app.chatMessages
            && |app.chatMessages| <= |r.chatMessages| <= |app.chatMessages| + 1
            && (|r.chatMessages| > |app.chatMessages| ==>
                  var m := r.chatMessages[|app.chatMessages|].message;
                  m != [] && Trim(m) == m)
  {
    var r := SendChat(app, input, freshId).app;
    var m := Trim(input);
    if m != [] && app.currentUser.Some? {
      var u := app.currentUser.value;
      assert r.chatMessages == app.chatMessages + [ChatMessage(freshId, Person(u.id, u.name), m)];
      assert r.chatMessages[..|app.chatMessages|] == app.chatMessages;
      TrimIdempotent(input);
    } else {
      assert r == app;
    }
  }

  // ---------------------------------------------------------------- connect

  /** `connectWithUser`: with someone logged in and a known target, only the current user's own
      connection count rises by one (the target's is not touched); otherwise nothing changes. */
  function ConnectWithUser(app: App, userId: int): (r: App)
    ensures app.currentUser.None? ==> r == app
    ensures (forall i :: 0 <= i < |app.users| ==> app.users[i].id != userId) ==> r == app
    ensures app.currentUser.Some? && (exists i :: 0 <= i < |app.users| && app.users[i].id == userId) ==>
              r == app.(currentUser := Some(app.currentUser.value.(stats :=
                   app.currentUser.value.stats.(connections := app.currentUser.value.stats.connections + 1))))
    ensures r.users == app.users && r.projects == app.projects
  {
    match app.currentUser
    case None => app
    case Some(u) =>
      match FirstIndex(app.users, (v: ClientUser) => v.id == userId)
      case None => app
      case Some(_) =>
        app.(currentUser := Some(u.(stats := u.stats.(connections := u.stats.connections + 1))))
  }

  /** With someone logged in and a known target the connection count rises by exactly one. */
  lemma ConnectCountsOnce(app: App, userId: int, i: nat)
    requires app.currentUser.Some?
    requires i < |app.users| && app.users[i].id == userId
    ensures ConnectWithUser(app, userId).currentUser.value.stats.connections
         == app.currentUser.value.stats.connections + 1
  {
    assert ((v: ClientUser) => v.id == userId)(app.users[i]);
  }

  /** Connecting to each of `targets` in turn. */
  function ConnectAll(app: App, targets: seq<int>): App
    decreases |targets|
  {
    if targets == [] then app else ConnectAll(ConnectWithUser(app, targets[0]), targets[1..])
  }

  /** Some user in the list has this id. */
  predicate Known(users: seq<ClientUser>, id: int) {
    exists i :: 0 <= i < |users| && users[i].id == id
  }

  /** With someone logged in, connecting to n known users one after another raises the current
      user's count by exactly n and never changes the user list, the projects or anything else
      about the current user. */
  lemma {:induction false} ConnectAllCounts(app: App, targets: seq<int>)
    requires app.currentUser.Some?
    requires forall k :: 0 <= k < |targets| ==> Known(app.users, targets[k])
    ensures var r := ConnectAll(app, targets);
            && r.currentUser.Some?
            && r.currentUser.value.stats.connections == app.currentUser.value.stats.connections + |targets|
            && r.currentUser.value.(stats := app.currentUser.value.stats) == app.currentUser.value
            && r.currentUser.value.stats.projects == app.currentUser.value.stats.projects
            && r == app.(currentUser := r.currentUser)
    decreases |targets|
  {
    if targets != [] {
      var next := ConnectWithUser(app, targets[0]);
      assert Known(app.users, targets[0]);
      assert next.users == app.users;
      forall k | 0 <= k < |targets[1..]| ensures Known(next.users, targets[1..][k]) {
        assert targets[1..][k] == targets[k + 1];
      }
      ConnectAllCounts(next, targets[1..]);
    }
  }
}

=== FILE: common.dfy ===
/** Shared vocabulary of the model: optional values and JavaScript truthiness. */
module Common {

  /** A value that may be absent: a JSON field that was not sent, an `Array.find`
      that matched nothing, or a library call that threw. */
  datatype Option<+T> = None | Some(value: T) {

    /** The value, or `default` when absent (JavaScript's `x || default` on a present, truthy value). */
    function GetOr(default: T): T {
      match this
      case Some(v) => v
      case None => default
    }
  }

  /** Outcome of a call into a foreign library that may throw. */
  datatype Outcome<+T> = Returns(value: T) | Throws

  /** A handler's JSON reply: a payload with status 200, or a status code and message. */
  datatype Reply<+T> = Ok(value: T) | Fail(code: int, message: string)

  /** The message every handler answers with status 500 when something it calls throws. */
  const InternalError := "Internal server error"

  /** JavaScript truthiness of an optional string field: absent (undefined or null) and "" are falsy. */
  predicate Truthy(o: Option<string>) {
    o.Some? && o.value != ""
  }
}

=== FILE: mock_handlers.dfy ===
/** The mutating handlers of the mock backend (js/server.js) as pure transitions
    `(store, request) -> (reply, store')`: register, login, create project, apply, connect
    and the message store behind the `send-message` socket event. */
module MockHandlers {
  import opened Common
  import opened Seqs
  import opened Text
  import opened Schema
  import opened MockState

  /** The fixed token every successful login or registration returns. */
  const MockToken := "mock-jwt-token"

  /** `{ success: true, user, token }`: the user is a `Profile`, so it has no password. */
  datatype Session = Session(user: Profile, token: string)

  /** `users.find(u => u.id === id)` found position `i`: it matches and nothing before it does. */
  ghost predicate IsFirstUser(users: seq<User>, i: int, id: int) {
    && 0 <= i < |users|
    && users[i].profile.id == id
    && forall k :: 0 <= k < i ==> users[k].profile.id != id
  }

  /** `projects.find(p => p.id === id)` found position `i`. */
  ghost predicate IsFirstProject(projects: seq<Project>, i: int, id: int) {
    && 0 <= i < |projects|
    && projects[i].id == id
    && forall k :: 0 <= k < i ==> projects[k].id != id
  }

  function UserIndex(users: seq<User>, id: int): (r: Option<nat>)
    ensures r.Some? ==> IsFirstUser(users, r.value, id)
    ensures r.None? <==> forall i :: 0 <= i < |users| ==> users[i].profile.id != id
  {
    FirstIndex(users, (u: User) => u.profile.id == id)
  }

  function ProjectIndex(projects: seq<Project>, id: int): (r: Option<nat>)
    ensures r.Some? ==> IsFirstProject(projects, r.value, id)
    ensures r.None? <==> forall i :: 0 <= i < |projects| ==> projects[i].id != id
  {
    FirstIndex(projects, (p: Project) => p.id == id)
  }

  // ---------------------------------------------------------------- register

  /** The body of `POST /api/auth/register`. `year` is taken as already parsed; an absent
      email or password is None, and is stored as such. */
  datatype RegisterRequest = RegisterRequest(
    name: string, email: Option<string>, password: Option<string>,
    university: string, branch: string, year: int)

  /** Some stored user has exactly this email (`u.email === email`). */
  ghost predicate EmailTaken(users: seq<User>, email: Option<string>) {
    exists i :: 0 <= i < |users| && Some(users[i].profile.email) == email
  }

  /** The record a successful registration creates: the next id, pending verification with the
      text after the first '@' as domain, zeroed stats at level 1, empty lists, available. */
  ghost predicate FreshRegistration(u: User, id: int, req: RegisterRequest) {
    && u.password == req.password
    && u.profile.id == id
    && Some(u.profile.email) == req.email
    && u.profile.name == req.name
    && u.profile.university == req.university
    && u.profile.branch == req.branch
    && u.profile.year == req.year
    && u.profile.verification == Verification(Pending, SplitSecond(u.profile.email, '@'))
    && u.profile.stats == Stats(0, 1, 0, 0.0, 0)
    && u.profile.skills == [] && u.profile.interests == [] && u.profile.badges == []
    && u.profile.bio == ""
    && u.profile.availability == Available
    && u.profile.github == None
  }

  /** `POST /api/auth/register`. The duplicate check runs first (409), then the '.edu' test on
      the whole address (400); an absent email makes that test throw (500). Only success
      changes the store, by appending exactly one user. */
  function Register(s: State, req: RegisterRequest): (st: Step<Session>)
    ensures EmailTaken(s.users, req.email)
            ==> st == Step(Fail(409, "User already exists with this email"), s)
    ensures !EmailTaken(s.users, req.email) && req.email.None?
            ==> st == Step(Fail(500, InternalError), s)
    ensures !EmailTaken(s.users, req.email) && req.email.Some? && !Contains(req.email.value, ".edu")
            ==> st == Step(Fail(400, "Please use a valid university email address"), s)
    ensures st.reply.Ok?
            <==> !EmailTaken(s.users, req.email) && req.email.Some? && Contains(req.email.value, ".edu")
    ensures st.reply.Ok? ==>
              && st.next.projects == s.projects
              && st.next.messages == s.messages
              && |st.next.users| == |s.users| + 1
              && st.next.users[..|s.users|] == s.users
              && FreshRegistration(st.next.users[|s.users|], |s.users| + 1, req)
              && st.reply.value == Session(st.next.users[|s.users|].profile, MockToken)
  {
    if FirstIndex(s.users, (u: User) => Some(u.profile.email) == req.email).Some? then
      Step(Fail(409, "User already exists with this email"), s)
    else if req.email.None? then
      Step(Fail(500, InternalError), s)
    else if !Contains(req.email.value, ".edu") then
      Step(Fail(400, "Please use a valid university email address"), s)
    else
      var email := req.email.value;
      var u := User(req.password, Profile(
        |s.users| + 1, email, req.name, req.university, req.branch, req.year, [], [], "",
        Verification(Pending, SplitSecond(email, '@')), Stats(0, 1, 0, 0.0, 0), [], Available, None));
      assert (s.users + [u])[..|s.users|] == s.users;
      Step(Ok(Session(u.profile, MockToken)), s.(users := s.users + [u]))
  }

  /** The '.edu' test looks at the whole address, local part included: `name.edu@gmail.com`
      registers whatever the domain. */
  lemma RegisterAcceptsEduInLocalPart(s: State, req: RegisterRequest, name: string, domain: string)
    requires req.email == Some(name + ".edu@" + domain)
    requires !EmailTaken(s.users, req.email)
    ensures Register(s, req).reply.Ok?
  {
    ContainsInfix(name, ".edu", "@" + domain);
    assert name + ".edu" + ("@" + domain) == name + ".edu@" + domain;
  }

  // ---------------------------------------------------------------- login

  /** `u.email === email && u.password === password`. */
  predicate Credentials(u: User, email: Option<string>, password: Option<string>) {
    Some(u.profile.email) == email && u.password == password
  }

  /** `POST /api/auth/login`: the first user with both the email and the password, without
      its password; any miss is the same 401. */
  function Login(s: State, email: Option<string>, password: Option<string>): (r: Reply<Session>)
    ensures r.Ok? <==> exists i :: 0 <= i < |s.users| && Credentials(s.users[i], email, password)
    ensures r.Ok? ==>
              exists i :: && 0 <= i < |s.users| && Credentials(s.users[i], email, password)
                          && (forall j :: 0 <= j < i ==> !Credentials(s.users[j], email, password))
                          && r.value == Session(s.users[i].profile, MockToken)
    ensures r.Fail? ==> r == Fail(401, "Invalid email or password")
  {
    match FirstIndex(s.users, (u: User) => Credentials(u, email, password))
    case Some(i) => Ok(Session(s.users[i].profile, MockToken))
    case None => Fail(401, "Invalid email or password")
  }

  /** Registering and then logging in with the same email and password returns the user just
      registered: no earlier user can carry that email. A registration that sent no password
      is then logged into by a login that sends none either (`undefined === undefined`). */
  lemma RegisterThenLogin(s: State, req: RegisterRequest)
    requires Register(s, req).reply.Ok?
    ensures Login(Register(s, req).next, req.email, req.password) == Register(s, req).reply
  {
    var st := Register(s, req);
    var us := st.next.users;
    var p := (u: User) => Credentials(u, req.email, req.password);
    assert p(us[|s.users|]);
    forall j | 0 <= j < |s.users| ensures !p(us[j]) {
      assert us[j] == s.users[j];
    }
    FirstIndexUnique(us, p, |s.users|);
  }

  // ---------------------------------------------------------------- create project

  /** The body of `POST /api/projects`; the timeline is not modelled. */
  datatype ProjectRequest = ProjectRequest(
    title: string, description: string, techStack: seq<string>, requiredRoles: seq<Role>, vibe: string)

  /** `stats.completedProjects += 1; stats.xp += 100` and nothing else. */
  function CreditOwner(u: User): (r: User)
    ensures r.password == u.password
    ensures r.profile.(stats := u.profile.stats) == u.profile
    ensures r.profile.stats.(xp := u.profile.stats.xp, completedProjects := u.profile.stats.completedProjects)
            == u.profile.stats
    ensures r.profile.stats.xp == u.profile.stats.xp + 100
    ensures r.profile.stats.completedProjects == u.profile.stats.completedProjects + 1
  {
    var st := u.profile.stats;
    u.(profile := u.profile.(stats := st.(completedProjects := st.completedProjects + 1, xp := st.xp + 100)))
  }

  /** `POST /api/projects`. The owner is the `user-id` header, 1 when absent. The project
      takes the next id, status recruiting, the owner as only member and no applications; its
      university is the owner's, or "Unknown University" when there is no such user or the
      owner's university is empty. The first user with that id is credited; nothing else moves. */
  function CreateProject(s: State, req: ProjectRequest, userHeader: Option<int>): (st: Step<Project>)
    ensures st.reply.Ok?
    ensures st.next.messages == s.messages
    ensures st.next.projects == s.projects + [st.reply.value]
    ensures var p, uid := st.reply.value, userHeader.GetOr(1);
              && p.id == |s.projects| + 1
              && p.ownerId == uid && p.teamMembers == [uid]
              && p.status == Recruiting && p.applications == []
              && p.title == req.title && p.description == req.description
              && p.techStack == req.techStack && p.requiredRoles == req.requiredRoles
              && p.vibe == req.vibe && p.collaborationType == "remote"
    ensures forall i :: IsFirstUser(s.users, i, userHeader.GetOr(1)) && s.users[i].profile.university != ""
              ==> st.reply.value.university == s.users[i].profile.university
    ensures (forall i :: IsFirstUser(s.users, i, userHeader.GetOr(1)) ==> s.users[i].profile.university == "")
              ==> st.reply.value.university == "Unknown University"
    ensures |st.next.users| == |s.users|
    ensures forall i :: 0 <= i < |s.users| ==>
              st.next.users[i] == if IsFirstUser(s.users, i, userHeader.GetOr(1)) then CreditOwner(s.users[i]) else s.users[i]
  {
    var uid := userHeader.GetOr(1);
    var owner := UserIndex(s.users, uid);
    var university :=
      if owner.Some? && s.users[owner.value].profile.university != "" then s.users[owner.value].profile.university
      else "Unknown University";
    var p := Project(|s.projects| + 1, req.title, req.description, uid, req.requiredRoles, req.techStack,
                     Recruiting, [uid], [], "remote", req.vibe, university);
    var users := if owner.Some? then s.users[owner.value := CreditOwner(s.users[owner.value])] else s.users;
    Step(Ok(p), State(users, s.projects + [p], s.messages))
  }

  // ---------------------------------------------------------------- apply

  /** Some application of `p` carries this userId. */
  ghost predicate HasApplied(p: Project, userId: int) {
    exists j :: 0 <= j < |p.applications| && p.applications[j].userId == userId
  }

  /** `POST /api/projects/:id/apply`: 404 for an unknown project, 409 when the user already
      applied; otherwise exactly one pending application is appended to that project. */
  function Apply(s: State, projectId: int, userId: int, message: string): (st: Step<string>)
    ensures st.next.users == s.users && st.next.messages == s.messages
    ensures st.reply.Fail? ==> st.next == s
    ensures (forall i :: 0 <= i < |s.projects| ==> s.projects[i].id != projectId)
              ==> st.reply == Fail(404, "Project not found")
    ensures forall i :: IsFirstProject(s.projects, i, projectId) && HasApplied(s.projects[i], userId)
              ==> st.reply == Fail(409, "You have already applied to this project")
    ensures forall i :: IsFirstProject(s.projects, i, projectId) && !HasApplied(s.projects[i], userId)
              ==> && st.reply == Ok("Application submitted successfully")
                  && st.next.projects == s.projects[i := s.projects[i].(applications :=
                       s.projects[i].applications + [Application(userId, message, "pending")])]
  {
    match ProjectIndex(s.projects, projectId)
    case None => Step(Fail(404, "Project not found"), s)
    case Some(i) =>
      var p := s.projects[i];
      assert forall k :: IsFirstProject(s.projects, k, projectId) ==> k == i;
      match FirstIndex(p.applications, (a: Application) => a.userId == userId)
      case Some(j) =>
        assert HasApplied(p, userId) by { assert p.applications[j].userId == userId; }
        Step(Fail(409, "You have already applied to this project"), s)
      case None =>
        assert !HasApplied(p, userId);
        var p' := p.(applications := p.applications + [Application(userId, message, "pending")]);
        Step(Ok("Application submitted successfully"), s.(projects := s.projects[i := p']))
  }

  /** A second application by the same user to the same project is refused and changes nothing. */
  lemma ApplyTwiceConflicts(s: State, projectId: int, userId: int, m1: string, m2: string)
    requires Apply(s, projectId, userId, m1).reply.Ok?
    ensures var s1 := Apply(s, projectId, userId, m1).next;
            Apply(s1, projectId, userId, m2) == Step(Fail(409, "You have already applied to this project"), s1)
  {
    var s1 := Apply(s, projectId, userId, m1).next;
    var i := ProjectIndex(s.projects, projectId).value;
    assert IsFirstProject(s.projects, i, projectId);
    assert !HasApplied(s.projects[i], userId);
    assert IsFirstProject(s1.projects, i, projectId);
    var apps := s1.projects[i].applications;
    assert apps[|apps| - 1].userId == userId;
  }

  // ---------------------------------------------------------------- connect

  /** `stats.connections += n` and nothing else. */
  function AddConnections(u: User, n: int): (r: User)
    ensures r.password == u.password
    ensures r.profile.(stats := u.profile.stats) == u.profile
    ensures r.profile.stats.(connections := u.profile.stats.connections) == u.profile.stats
    ensures r.profile.stats.connections == u.profile.stats.connections + n
  {
    u.(profile := u.profile.(stats := u.profile.stats.(connections := u.profile.stats.connections + n)))
  }

  /** `POST /api/users/:id/connect`: 404 (and no change) unless both users exist; otherwise the
      requester and the target each gain one connection, so a user connecting to themself
      gains two, and every other user is unchanged. */
  function Connect(s: State, targetId: int, userId: int): (st: Step<string>)
    ensures st.next.projects == s.projects && st.next.messages == s.messages
    ensures st.reply.Fail? ==> st == Step(Fail(404, "User not found"), s)
    ensures st.reply.Ok? <==>
              && (exists i :: 0 <= i < |s.users| && s.users[i].profile.id == targetId)
              && (exists i :: 0 <= i < |s.users| && s.users[i].profile.id == userId)
    ensures st.reply.Ok? ==>
              && |st.next.users| == |s.users|
              && forall i :: 0 <= i < |s.users| ==>
                   st.next.users[i] == AddConnections(s.users[i],
                     (if IsFirstUser(s.users, i, userId) then 1 else 0)
                     + (if IsFirstUser(s.users, i, targetId) then 1 else 0))
    ensures st.reply.Ok? ==>
              exists t :: && IsFirstUser(s.users, t, targetId)
                          && st.reply.value == "Connection request sent to " + s.users[t].profile.name
  {
    var target := UserIndex(s.users, targetId);
    var requester := UserIndex(s.users, userId);
    if target.None? || requester.None? then
      Step(Fail(404, "User not found"), s)
    else
      var t, q := target.value, requester.value;
      assert forall k :: IsFirstUser(s.users, k, userId) <==> k == q;
      assert forall k :: IsFirstUser(s.users, k, targetId) <==> k == t;
      var users1 := s.users[q := AddConnections(s.users[q], 1)];
      var users2 := users1[t := AddConnections(users1[t], 1)];
      Step(Ok("Connection request sent to " + s.users[t].profile.name), s.(users := users2))
  }

  /** A successful connect raises the sum of all users' connections by exactly two. */
  lemma ConnectAddsTwo(s: State, targetId: int, userId: int)
    requires exists i :: 0 <= i < |s.users| && s.users[i].profile.id == targetId
    requires exists i :: 0 <= i < |s.users| && s.users[i].profile.id == userId
    ensures TotalConnections(Connect(s, targetId, userId).next.users) == TotalConnections(s.users) + 2
  {
    var t := UserIndex(s.users, targetId).value;
    var q := UserIndex(s.users, userId).value;
    var users1 := s.users[q := AddConnections(s.users[q], 1)];
    TotalConnectionsUpdate(s.users, q, AddConnections(s.users[q], 1));
    TotalConnectionsUpdate(users1, t, AddConnections(users1[t], 1));
  }

  // ---------------------------------------------------------------- message store

  /** `messages[room] || []`. */
  function RoomMessages(m: map<string, seq<StoredMessage>>, room: string): seq<StoredMessage> {
    if room in m then m[room] else []
  }

  /** The store update of the `send-message` event: the room's list (created when missing)
      gains one message numbered after its current length; no other room, user or project changes. */
  function SendMessage(s: State, room: string, userId: int, text: string): (next: State)
    ensures next.users == s.users && next.projects == s.projects
    ensures next.messages.Keys == s.messages.Keys + {room}
    ensures forall k :: k in s.messages && k != room ==> next.messages[k] == s.messages[k]
    ensures next.messages[room] == RoomMessages(s.messages, room)
              + [StoredMessage(|RoomMessages(s.messages, room)| + 1, userId, text)]
  {
    var ms := RoomMessages(s.messages, room);
    s.(messages := s.messages[room := ms + [StoredMessage(|ms| + 1, userId, text)]])
  }

  // ---------------------------------------------------------------- invariants

  /** Changing users without touching their ids or emails keeps the user invariant. */
  lemma SameIdsAndEmails(us: seq<User>, us1: seq<User>)
    requires UsersWellFormed(us) && |us1| == |us|
    requires forall i :: 0 <= i < |us| ==>
               us1[i].profile.id == us[i].profile.id && us1[i].profile.email == us[i].profile.email
    ensures UsersWellFormed(us1)
  {
  }

  /** Appending a user with the next id and a new email keeps the user invariant. */
  lemma AppendUserWellFormed(us: seq<User>, u: User)
    requires UsersWellFormed(us) && u.profile.id == |us| + 1
    requires forall i :: 0 <= i < |us| ==> us[i].profile.email != u.profile.email
    ensures UsersWellFormed(us + [u])
  {
    var us1 := us + [u];
    forall i, j | 0 <= i < j < |us1| ensures us1[i].profile.email != us1[j].profile.email {
      assert us1[i] == us[i];
      if j < |us| {
        assert us1[j] == us[j];
      }
    }
  }

  lemma RegisterPreservesWellFormed(s: State, req: RegisterRequest)
    requires WellFormed(s)
    ensures WellFormed(Register(s, req).next)
  {
    var st := Register(s, req);
    if st.reply.Ok? {
      var u := st.next.users[|s.users|];
      assert st.next.users == s.users + [u];
      assert forall i :: 0 <= i < |s.users| ==> Some(s.users[i].profile.email) != req.email;
      AppendUserWellFormed(s.users, u);
    }
  }

  lemma CreateProjectPreservesWellFormed(s: State, req: ProjectRequest, userHeader: Option<int>)
    requires WellFormed(s)
    ensures WellFormed(CreateProject(s, req, userHeader).next)
  {
    var s1 := CreateProject(s, req, userHeader).next;
    SameIdsAndEmails(s.users, s1.users);
    forall i | 0 <= i < |s1.projects| ensures s1.projects[i].id == i + 1 && ApplicantsUnique(s1.projects[i]) {
      if i < |s.projects| { assert s1.projects[i] == s.projects[i]; }
    }
  }

  /** An application from a user who has not applied keeps the applicants unique. */
  lemma AppendApplicationUnique(p: Project, app: Application)
    requires ApplicantsUnique(p) && !HasApplied(p, app.userId)
    ensures ApplicantsUnique(p.(applications := p.applications + [app]))
  {
    var apps := p.applications + [app];
    forall a, b | 0 <= a < b < |apps| ensures apps[a].userId != apps[b].userId {
      assert apps[a] == p.applications[a];
      if b < |p.applications| {
        assert apps[b] == p.applications[b];
      }
    }
  }

  /** Apply keeps each userId at most once per project. */
  lemma ApplyPreservesWellFormed(s: State, projectId: int, userId: int, message: string)
    requires WellFormed(s)
    ensures WellFormed(Apply(s, projectId, userId, message).next)
  {
    var st := Apply(s, projectId, userId, message);
    if st.reply.Ok? {
      var i := ProjectIndex(s.projects, projectId).value;
      var p := s.projects[i];
      assert IsFirstProject(s.projects, i, projectId);
      assert !HasApplied(p, userId);
      var app := Application(userId, message, "pending");
      AppendApplicationUnique(p, app);
      assert st.next.projects == s.projects[i := p.(applications := p.applications + [app])];
    }
  }

  lemma ConnectPreservesWellFormed(s: State, targetId: int, userId: int)
    requires WellFormed(s)
    ensures WellFormed(Connect(s, targetId, userId).next)
  {
    SameIdsAndEmails(s.users, Connect(s, targetId, userId).next.users);
  }

  /** Each room's ids stay 1..n in arrival order, whichever room receives the message. */
  lemma SendMessagePreservesWellFormed(s: State, room: string, userId: int, text: string)
    requires WellFormed(s)
    ensures WellFormed(SendMessage(s, room, userId, text))
  {
    var s1 := SendMessage(s, room, userId, text);
    var ms := RoomMessages(s.messages, room);
    assert MessageIdsSequential(ms);
    assert MessageIdsSequential(s1.messages[room]);
  }
}

=== FILE: mock_queries.dfy ===
/** The read-only handlers of the mock backend (js/server.js): the project and user listings
    with their query filters, and the skill-based recommendations. */
module MockQueries {
  import opened Common
  import opened Seqs
  import opened Text
  import opened Schema
  import opened MockState
  import opened MockHandlers

  /** A query parameter that filters: present, non-empty and not "all". */
  predicate Selects(o: Option<string>) {
    Truthy(o) && o.value != "all"
  }

  /** A listed record paired with the summary of its owner. */
  datatype Enriched<+O> = Enriched(project: Project, owner: O)

  /** Some user has this id. */
  ghost predicate UserExists(users: seq<User>, id: int) {
    exists j :: 0 <= j < |users| && users[j].profile.id == id
  }

  /** Every project's owner exists. */
  ghost predicate OwnersExist(users: seq<User>, ps: seq<Project>) {
    forall i :: 0 <= i < |ps| ==> UserExists(users, ps[i].ownerId)
  }

  /** Each record carries the view of the first user whose id is its project's owner id. */
  ghost predicate OwnersAttached<O>(users: seq<User>, es: seq<Enriched<O>>, view: User -> O) {
    forall i :: 0 <= i < |es| ==>
      UserIndex(users, es[i].project.ownerId).Some?
      && es[i].owner == view(users[UserIndex(users, es[i].project.ownerId).value])
  }

  /** The projects of a list of enriched records. */
  function ProjectsOf<O>(es: seq<Enriched<O>>): (r: seq<Project>)
    ensures |r| == |es|
    ensures forall i :: 0 <= i < |es| ==> r[i] == es[i].project
  {
    seq(|es|, i requires 0 <= i < |es| => es[i].project)
  }

  /** `ps.map(p => ({ ...p, owner: view(users.find(u => u.id === p.ownerId)) }))`. Reading a
      field of a missing owner throws, so the whole map fails (None) as soon as one owner is
      missing. */
  function Enrich<O>(users: seq<User>, ps: seq<Project>, view: User -> O): (r: Option<seq<Enriched<O>>>)
    ensures r.Some? ==> |r.value| == |ps|
    decreases |ps|
  {
    if ps == [] then Some([])
    else
      match UserIndex(users, ps[0].ownerId)
      case None => None
      case Some(j) =>
        match Enrich(users, ps[1..], view)
        case None => None
        case Some(rest) => Some([Enriched(ps[0], view(users[j]))] + rest)
  }

  /** Attaching owners succeeds exactly when every project's owner exists. */
  lemma {:induction false} EnrichSucceedsIffOwnersExist<O>(users: seq<User>, ps: seq<Project>, view: User -> O)
    ensures Enrich(users, ps, view).Some? <==> OwnersExist(users, ps)
    decreases |ps|
  {
    if ps != [] {
      EnrichSucceedsIffOwnersExist(users, ps[1..], view);
      assert forall i :: 1 <= i < |ps| ==> ps[i] == ps[1..][i - 1];
      if UserIndex(users, ps[0].ownerId).None? {
        assert !UserExists(users, ps[0].ownerId);
      }
    }
  }

  /** A successful enrichment keeps the projects in order and gives each the view of the first
      user with its owner id. */
  lemma {:induction false} EnrichAttachesOwners<O>(users: seq<User>, ps: seq<Project>, view: User -> O)
    requires Enrich(users, ps, view).Some?
    ensures var es := Enrich(users, ps, view).value;
            ProjectsOf(es) == ps && OwnersAttached(users, es, view)
    decreases |ps|
  {
    var es := Enrich(users, ps, view).value;
    if ps != [] {
      var j := UserIndex(users, ps[0].ownerId).value;
      var rest := Enrich(users, ps[1..], view).value;
      EnrichAttachesOwners(users, ps[1..], view);
      assert es == [Enriched(ps[0], view(users[j]))] + rest;
      forall i | 0 <= i < |ps|
        ensures es[i].project == ps[i]
        ensures UserIndex(users, es[i].project.ownerId).Some?
        ensures es[i].owner == view(users[UserIndex(users, es[i].project.ownerId).value])
      {
        if i > 0 {
          assert ps[i] == ps[1..][i - 1] && es[i] == rest[i - 1];
        }
      }
    }
    assert ProjectsOf(es) == ps;
  }

  // ---------------------------------------------------------------- GET /api/projects

  datatype ProjectQuery = ProjectQuery(search: Option<string>, status: Option<string>, university: Option<string>)

  datatype OwnerSummary = OwnerSummary(id: int, name: string, university: string)

  function ProjectTexts(p: Project): seq<string> {
    [p.title, p.description] + p.techStack
  }

  /** The search stage: title, description or some technology includes the term, ignoring case. */
  function SearchesProject(term: string): Project -> bool {
    (p: Project) => SomeTextIncludes(ProjectTexts(p), Lower(term))
  }

  function HasStatus(status: string): Project -> bool {
    (p: Project) => ProjectStatusName(p.status) == status
  }

  function AtUniversity(university: string): Project -> bool {
    (p: Project) => p.university == university
  }

  /** A project passes every filter the query switches on. */
  predicate ProjectMatches(p: Project, q: ProjectQuery) {
    && (Truthy(q.search) ==> SomeTextIncludes(ProjectTexts(p), Lower(q.search.value)))
    && (Selects(q.status) ==> ProjectStatusName(p.status) == q.status.value)
    && (Selects(q.university) ==> p.university == q.university.value)
  }

  function MatchesQuery(q: ProjectQuery): Project -> bool {
    (p: Project) => ProjectMatches(p, q)
  }

  /** The three project filter stages, in the handler's order, are one filter by the query. */
  lemma ProjectStagesAreOnePass(ps: seq<Project>, q: ProjectQuery)
    ensures Stage(Stage(Stage(ps, Truthy(q.search), SearchesProject(q.search.GetOr(""))),
                        Selects(q.status), HasStatus(q.status.GetOr(""))),
                  Selects(q.university), AtUniversity(q.university.GetOr("")))
            == Filter(ps, MatchesQuery(q))
  {
    var search, status, university := q.search.GetOr(""), q.status.GetOr(""), q.university.GetOr("");
    forall p: Project
      ensures MatchesQuery(q)(p) == ((Truthy(q.search) ==> SearchesProject(search)(p))
                                     && (Selects(q.status) ==> HasStatus(status)(p))
                                     && (Selects(q.university) ==> AtUniversity(university)(p)))
    {
    }
    StagedFilter(ps, Truthy(q.search), SearchesProject(search), Selects(q.status), HasStatus(status),
                 Selects(q.university), AtUniversity(university), MatchesQuery(q));
  }

  /** The three filter stages of `GET /api/projects` in the handler's order. The result is the
      order-preserving subsequence of exactly the projects passing every enabled filter. */
  function FilterProjects(ps: seq<Project>, q: ProjectQuery): (r: seq<Project>)
    ensures r == Filter(ps, MatchesQuery(q))
    ensures Subseq(r, ps)
    ensures forall i :: 0 <= i < |r| ==> ProjectMatches(r[i], q)
    ensures forall i :: 0 <= i < |ps| && ProjectMatches(ps[i], q) ==> ps[i] in r
  {
    ProjectStagesAreOnePass(ps, q);
    Stage(Stage(Stage(ps, Truthy(q.search), SearchesProject(q.search.GetOr(""))),
                Selects(q.status), HasStatus(q.status.GetOr(""))),
          Selects(q.university), AtUniversity(q.university.GetOr("")))
  }

  function Summary(u: User): OwnerSummary {
    OwnerSummary(u.profile.id, u.profile.name, u.profile.university)
  }

  /** `GET /api/projects`: the filtered projects, each with its owner's id, name and university.
      A listed project whose owner does not exist makes the handler throw: 500. */
  function ListProjects(s: State, q: ProjectQuery): (r: Reply<seq<Enriched<OwnerSummary>>>)
    ensures var ps := FilterProjects(s.projects, q);
            r.Ok? <==> OwnersExist(s.users, ps)
    ensures r.Fail? ==> r == Fail(500, InternalError)
    ensures r.Ok? ==> ProjectsOf(r.value) == FilterProjects(s.projects, q)
    ensures r.Ok? ==> OwnersAttached(s.users, r.value, Summary)
  {
    var ps := FilterProjects(s.projects, q);
    EnrichSucceedsIffOwnersExist(s.users, ps, Summary);
    match Enrich(s.users, ps, Summary)
    case None => Fail(500, InternalError)
    case Some(views) =>
      EnrichAttachesOwners(s.users, ps, Summary);
      Ok(views)
  }

  /** On a well-formed store every owner of a project created through the handler exists, but a
      project whose owner id names no user (any `user-id` header that is not a registered id)
      makes every listing that includes it fail. */
  lemma ListingFailsOnUnknownOwner(s: State, q: ProjectQuery, i: nat)
    requires i < |FilterProjects(s.projects, q)|
    requires !UserExists(s.users, FilterProjects(s.projects, q)[i].ownerId)
    ensures ListProjects(s, q) == Fail(500, InternalError)
  {
  }

  // ---------------------------------------------------------------- GET /api/users

  datatype UserQuery = UserQuery(search: Option<string>, skills: Option<string>, availability: Option<string>)

  /** The id of the seeded demo user, which the user listing never shows. */
  const DemoUserId := 1

  function UserTexts(p: Profile): seq<string> {
    [p.name, p.university] + p.skills
  }

  /** The three optional stages of the user listing: each enabled filter passes. The skill
      filter is exact, case-sensitive membership. */
  predicate PassesStages(p: Profile, q: UserQuery) {
    && (Truthy(q.search) ==> SomeTextIncludes(UserTexts(p), Lower(q.search.value)))
    && (Selects(q.skills) ==> q.skills.value in p.skills)
    && (Selects(q.availability) ==> AvailabilityName(p.availability) == q.availability.value)
  }

  /** A user is listed when it is not the demo user and passes every enabled filter. */
  predicate UserMatches(p: Profile, q: UserQuery) {
    p.id != DemoUserId && PassesStages(p, q)
  }

  function MatchesUserQuery(q: UserQuery): User -> bool {
    (u: User) => UserMatches(u.profile, q)
  }

  function UserStages(q: UserQuery): User -> bool {
    (u: User) => PassesStages(u.profile, q)
  }

  function NotDemo(): User -> bool {
    (u: User) => u.profile.id != DemoUserId
  }

  function SearchesUser(term: string): User -> bool {
    (u: User) => SomeTextIncludes(UserTexts(u.profile), Lower(term))
  }

  function HasSkill(skill: string): User -> bool {
    (u: User) => skill in u.profile.skills
  }

  function HasAvailability(a: string): User -> bool {
    (u: User) => AvailabilityName(u.profile.availability) == a
  }

  /** `({ password, ...user }) => user` over a list. */
  function Profiles(us: seq<User>): (r: seq<Profile>)
    ensures |r| == |us|
    ensures forall i :: 0 <= i < |us| ==> r[i] == us[i].profile
  {
    seq(|us|, i requires 0 <= i < |us| => us[i].profile)
  }

  /** The handler's own order: drop the demo user, then the three optional stages. */
  function UserPipeline(s: State, q: UserQuery): seq<User> {
    Stage(Stage(Stage(Filter(s.users, NotDemo()),
                      Truthy(q.search), SearchesUser(q.search.GetOr(""))),
                Selects(q.skills), HasSkill(q.skills.GetOr(""))),
          Selects(q.availability), HasAvailability(q.availability.GetOr("")))
  }

  /** The three optional stages, run on any list, are one filter by `PassesStages`. */
  lemma StagesAreOnePass(us: seq<User>, q: UserQuery)
    ensures Stage(Stage(Stage(us, Truthy(q.search), SearchesUser(q.search.GetOr(""))),
                        Selects(q.skills), HasSkill(q.skills.GetOr(""))),
                  Selects(q.availability), HasAvailability(q.availability.GetOr("")))
            == Filter(us, UserStages(q))
  {
    var search, skill, availability := q.search.GetOr(""), q.skills.GetOr(""), q.availability.GetOr("");
    forall u: User
      ensures UserStages(q)(u) == ((Truthy(q.search) ==> SearchesUser(search)(u))
                                   && (Selects(q.skills) ==> HasSkill(skill)(u))
                                   && (Selects(q.availability) ==> HasAvailability(availability)(u)))
    {
    }
    StagedFilter(us, Truthy(q.search), SearchesUser(search), Selects(q.skills), HasSkill(skill),
                 Selects(q.availability), HasAvailability(availability), UserStages(q));
  }

  /** The staged user filters amount to one filter by `UserMatches`. */
  lemma UserPipelineIsOnePass(s: State, q: UserQuery)
    ensures UserPipeline(s, q) == Filter(s.users, MatchesUserQuery(q))
  {
    StagesAreOnePass(Filter(s.users, NotDemo()), q);
    FilterFilter(s.users, NotDemo(), UserStages(q));
    forall i | 0 <= i < |s.users|
      ensures And(NotDemo(), UserStages(q))(s.users[i]) == MatchesUserQuery(q)(s.users[i])
    {
    }
    FilterCongruent(s.users, And(NotDemo(), UserStages(q)), MatchesUserQuery(q));
  }

  /** The listed profiles are exactly those of the matching users. */
  lemma ListedProfilesMatch(us: seq<User>, q: UserQuery)
    ensures var r := Profiles(Filter(us, MatchesUserQuery(q)));
            && (forall i :: 0 <= i < |r| ==> UserMatches(r[i], q))
            && (forall i :: 0 <= i < |us| && UserMatches(us[i].profile, q) ==> us[i].profile in r)
  {
    var listed := Filter(us, MatchesUserQuery(q));
    var r := Profiles(listed);
    ListedMatch(listed, q, r);
    MatchingListed(us, listed, q, r);
  }

  /** Profiles of users that all match, match. */
  lemma ListedMatch(listed: seq<User>, q: UserQuery, r: seq<Profile>)
    requires forall k :: 0 <= k < |listed| ==> MatchesUserQuery(q)(listed[k])
    requires |r| == |listed| && forall k :: 0 <= k < |r| ==> r[k] == listed[k].profile
    ensures forall i :: 0 <= i < |r| ==> UserMatches(r[i], q)
  {
    forall i | 0 <= i < |r| ensures UserMatches(r[i], q) {
      assert MatchesUserQuery(q)(listed[i]);
    }
  }

  /** A matching user that is listed has its profile among the listed profiles. */
  lemma MatchingListed(us: seq<User>, listed: seq<User>, q: UserQuery, r: seq<Profile>)
    requires forall i :: 0 <= i < |us| && MatchesUserQuery(q)(us[i]) ==> us[i] in listed
    requires |r| == |listed| && forall k :: 0 <= k < |r| ==> r[k] == listed[k].profile
    ensures forall i :: 0 <= i < |us| && UserMatches(us[i].profile, q) ==> us[i].profile in r
  {
    forall i | 0 <= i < |us| && UserMatches(us[i].profile, q) ensures us[i].profile in r {
      assert MatchesUserQuery(q)(us[i]);
      var k :| 0 <= k < |listed| && listed[k] == us[i];
      assert r[k] == us[i].profile;
    }
  }

  /** `GET /api/users`: the demo user is dropped, then the three filter stages run; passwords
      are stripped. The result lists, in store order, exactly the matching users. */
  function ListUsers(s: State, q: UserQuery): (r: seq<Profile>)
    ensures r == Profiles(Filter(s.users, MatchesUserQuery(q)))
    ensures forall i :: 0 <= i < |r| ==> r[i].id != DemoUserId && UserMatches(r[i], q)
    ensures forall i :: 0 <= i < |s.users| && UserMatches(s.users[i].profile, q) ==> s.users[i].profile in r
  {
    var listed := UserPipeline(s, q);
    UserPipelineIsOnePass(s, q);
    var r := Profiles(listed);
    ListedMatch(listed, q, r);
    MatchingListed(s.users, listed, q, r);
    r
  }

  // ---------------------------------------------------------------- recommendations

  datatype OwnerRef = OwnerRef(id: int, name: string)

  datatype Recommendations = Recommendations(projects: seq<Enriched<OwnerRef>>, buddies: seq<Profile>)

  /** Some technology, lower-cased, is among the (lower-cased) skills. */
  predicate SharesSkill(techStack: seq<string>, lowSkills: seq<string>) {
    exists t :: 0 <= t < |techStack| && Lower(techStack[t]) in lowSkills
  }

  /** Some skill, lower-cased, is not among the (lower-cased) skills: it complements them. */
  predicate HasSkillOutside(skills: seq<string>, lowSkills: seq<string>) {
    exists k :: 0 <= k < |skills| && Lower(skills[k]) !in lowSkills
  }

  function UsesSkillOf(lowSkills: seq<string>): Project -> bool {
    (p: Project) => SharesSkill(p.techStack, lowSkills)
  }

  function Complements(lowSkills: seq<string>): User -> bool {
    (b: User) => HasSkillOutside(b.profile.skills, lowSkills)
  }

  function NotUser(id: int): User -> bool {
    (b: User) => b.profile.id != id
  }

  function Ref(u: User): OwnerRef {
    OwnerRef(u.profile.id, u.profile.name)
  }

  /** How many recommendations of each kind are returned. */
  const RecommendationLimit := 3

  /** Every picked project shares a technology with the skills. */
  lemma PickedProjectsShareSkill(ps: seq<Project>, low: seq<string>)
    ensures var picked := Take(Filter(ps, UsesSkillOf(low)), RecommendationLimit);
            forall i :: 0 <= i < |picked| ==> SharesSkill(picked[i].techStack, low)
  {
    var matching := Filter(ps, UsesSkillOf(low));
    var picked := Take(matching, RecommendationLimit);
    forall i | 0 <= i < |picked| ensures SharesSkill(picked[i].techStack, low) {
      assert picked[i] == matching[i];
      assert UsesSkillOf(low)(matching[i]);
    }
  }

  /** Every picked buddy is another user with a skill outside the given ones. */
  lemma PickedBuddiesComplement(users: seq<User>, userId: int, low: seq<string>)
    ensures var picked := Profiles(Take(Filter(Filter(users, NotUser(userId)), Complements(low)), RecommendationLimit));
            forall i :: 0 <= i < |picked| ==> picked[i].id != userId && HasSkillOutside(picked[i].skills, low)
  {
    var others := Filter(users, NotUser(userId));
    var matching := Filter(others, Complements(low));
    var taken := Take(matching, RecommendationLimit);
    var picked := Profiles(taken);
    forall i | 0 <= i < |picked| ensures picked[i].id != userId && HasSkillOutside(picked[i].skills, low) {
      assert picked[i] == taken[i].profile && taken[i] == matching[i];
      assert Complements(low)(matching[i]);
      var k :| 0 <= k < |others| && others[k] == matching[i];
      assert NotUser(userId)(others[k]);
    }
  }

  /** The projects picked for skills `low`: the first three sharing a technology with them. */
  function PickedProjects(s: State, low: seq<string>): seq<Project> {
    Take(Filter(s.projects, UsesSkillOf(low)), RecommendationLimit)
  }

  /** The users picked for user `userId` with skills `low`: the first three others with a skill
      outside them. */
  function PickedBuddies(s: State, userId: int, low: seq<string>): seq<User> {
    Take(Filter(Filter(s.users, NotUser(userId)), Complements(low)), RecommendationLimit)
  }

  /** What a recommendation for `userId` holds when `low` are that user's lower-cased skills:
      the first three projects sharing a technology with them, in store order, each sharing one,
      and the first three other users having a skill outside them. */
  ghost predicate RecommendedWith(s: State, userId: int, low: seq<string>, rec: Recommendations) {
    && (forall i :: 0 <= i < |rec.projects| ==> SharesSkill(rec.projects[i].project.techStack, low))
    && ProjectsOf(rec.projects) == PickedProjects(s, low)
    && OwnersAttached(s.users, rec.projects, Ref)
    && (forall i :: 0 <= i < |rec.buddies| ==>
          rec.buddies[i].id != userId && HasSkillOutside(rec.buddies[i].skills, low))
    && rec.buddies == Profiles(PickedBuddies(s, userId, low))
  }

  /** What a successful recommendation for `userId` holds, with the skills of the first user
      having that id. */
  ghost predicate RecommendedFor(s: State, userId: int, rec: Recommendations) {
    forall u :: IsFirstUser(s.users, u, userId) ==>
      RecommendedWith(s, userId, LowerAll(s.users[u].profile.skills), rec)
  }

  /** The recommendation built from the first user with that id meets `RecommendedFor`. */
  lemma RecommendationHolds(s: State, userId: int, u: nat, projects: seq<Enriched<OwnerRef>>)
    requires IsFirstUser(s.users, u, userId)
    requires ProjectsOf(projects) == PickedProjects(s, LowerAll(s.users[u].profile.skills))
    requires OwnersAttached(s.users, projects, Ref)
    ensures RecommendedFor(s, userId,
                           Recommendations(projects, Profiles(PickedBuddies(s, userId, LowerAll(s.users[u].profile.skills)))))
  {
    var low := LowerAll(s.users[u].profile.skills);
    var rec := Recommendations(projects, Profiles(PickedBuddies(s, userId, low)));
    PickedProjectsShareSkill(s.projects, low);
    PickedBuddiesComplement(s.users, userId, low);
    forall i | 0 <= i < |projects| ensures SharesSkill(projects[i].project.techStack, low) {
      assert projects[i].project == PickedProjects(s, low)[i];
    }
    assert RecommendedWith(s, userId, low, rec);
    forall v | IsFirstUser(s.users, v, userId) ensures v == u {
    }
  }

  /** Position `u` holds the first user with id `userId`, and every project picked for that
      user's skills has an existing owner. */
  ghost predicate RecommendationPossible(s: State, userId: int, u: int) {
    IsFirstUser(s.users, u, userId) && OwnersExist(s.users, PickedProjects(s, LowerAll(s.users[u].profile.skills)))
  }

  /** `GET /api/dashboard/recommendations/:userId` (match scores aside): 404 for an unknown user;
      otherwise the first three projects sharing a technology with the user's skills and the
      first three other users having a skill the user lacks, both ignoring case. A picked project
      whose owner does not exist makes the handler throw: 500. */
  function Recommend(s: State, userId: int): (r: Reply<Recommendations>)
    ensures (forall i :: 0 <= i < |s.users| ==> s.users[i].profile.id != userId)
              <==> r == Fail(404, "User not found")
    ensures r.Fail? ==> r == Fail(404, "User not found") || r == Fail(500, InternalError)
    ensures r.Ok? ==> |r.value.projects| <= RecommendationLimit && |r.value.buddies| <= RecommendationLimit
    ensures r.Ok? ==> RecommendedFor(s, userId, r.value)
  {
    match UserIndex(s.users, userId)
    case None => Fail(404, "User not found")
    case Some(u) =>
      var low := LowerAll(s.users[u].profile.skills);
      match Enrich(s.users, PickedProjects(s, low), Ref)
      case None => Fail(500, InternalError)
      case Some(projects) =>
        EnrichAttachesOwners(s.users, PickedProjects(s, low), Ref);
        RecommendationHolds(s, userId, u, projects);
        Ok(Recommendations(projects, Profiles(PickedBuddies(s, userId, low))))
  }

  /** A recommendation is served exactly when the user exists and every project picked for
      them has an existing owner; otherwise reading the missing owner's fields throws. */
  lemma RecommendSucceedsIff(s: State, userId: int)
    ensures Recommend(s, userId).Ok? <==> exists u :: RecommendationPossible(s, userId, u)
  {
    match UserIndex(s.users, userId)
    case None =>
      assert forall u :: !IsFirstUser(s.users, u, userId);
    case Some(u) =>
      assert forall k :: IsFirstUser(s.users, k, userId) ==> k == u;
      EnrichSucceedsIffOwnersExist(s.users, PickedProjects(s, LowerAll(s.users[u].profile.skills)), Ref);
      if Recommend(s, userId).Ok? {
        assert RecommendationPossible(s, userId, u);
      }
  }
}

=== FILE: mock_state.dfy ===
/** The records and the in-memory store of the mock backend (js/server.js): three
    collections, `users`, `projects` and the per-room `messages` map, plus the invariants
    the handlers keep. */
module MockState {
  import opened Common
  import opened Schema

  datatype Stats = Stats(xp: int, level: int, completedProjects: int, rating: real, connections: int)

  /** `universityDomain` is `email.split('@')[1]`, which is undefined (None) without an '@'. */
  datatype Verification = Verification(status: VerificationStatus, universityDomain: Option<string>)

  /** Everything a user record holds except the password: the only user shape responses carry. */
  datatype Profile = Profile(
    id: int,
    email: string,
    name: string,
    university: string,
    branch: string,
    year: int,
    skills: seq<string>,
    interests: seq<string>,
    bio: string,
    verification: Verification,
    stats: Stats,
    badges: seq<string>,
    availability: Availability,
    github: Option<string>)

  /** A stored user; a registration without a password stores `undefined` (None). */
  datatype User = User(password: Option<string>, profile: Profile)

  datatype Role = Role(role: string, count: int, skills: seq<string>)

  datatype Application = Application(userId: int, message: string, status: string)

  datatype Project = Project(
    id: int,
    title: string,
    description: string,
    ownerId: int,
    requiredRoles: seq<Role>,
    techStack: seq<string>,
    status: ProjectStatus,
    teamMembers: seq<int>,
    applications: seq<Application>,
    collaborationType: string,
    vibe: string,
    university: string)

  datatype StoredMessage = StoredMessage(id: int, userId: int, text: string)

  /** The three collections. `messages` is keyed by the room's project id as a property name. */
  datatype State = State(users: seq<User>, projects: seq<Project>, messages: map<string, seq<StoredMessage>>)

  /** What a mutating handler produces: the reply and the store afterwards. */
  datatype Step<+T> = Step(reply: Reply<T>, next: State)

  /** Each userId applies at most once to a project. */
  predicate ApplicantsUnique(p: Project) {
    forall i, j :: 0 <= i < j < |p.applications| ==> p.applications[i].userId != p.applications[j].userId
  }

  /** A room's messages are numbered 1..n in arrival order. */
  predicate MessageIdsSequential(ms: seq<StoredMessage>) {
    forall i :: 0 <= i < |ms| ==> ms[i].id == i + 1
  }

  /** Users are numbered 1..n in store order and no two share an email. */
  predicate UsersWellFormed(us: seq<User>) {
    && (forall i :: 0 <= i < |us| ==> us[i].profile.id == i + 1)
    && (forall i, j :: 0 <= i < j < |us| ==> us[i].profile.email != us[j].profile.email)
  }

  /** Projects are numbered 1..n in store order and each has at most one application per user. */
  predicate ProjectsWellFormed(ps: seq<Project>) {
    && (forall i :: 0 <= i < |ps| ==> ps[i].id == i + 1)
    && (forall i :: 0 <= i < |ps| ==> ApplicantsUnique(ps[i]))
  }

  /** Every room's messages are numbered 1..n in arrival order. */
  predicate MessagesWellFormed(m: map<string, seq<StoredMessage>>) {
    forall k :: k in m ==> MessageIdsSequential(m[k])
  }

  /** What the handlers maintain: sequential user and project ids, unique emails, at most one
      application per user and project, and sequential message ids in every room. */
  predicate WellFormed(s: State) {
    UsersWellFormed(s.users) && ProjectsWellFormed(s.projects) && MessagesWellFormed(s.messages)
  }

  /** The seeded demo user's profile texts. */
  const DemoSkills: seq<string> := ["React", "Node.js", "Python", "MongoDB"]
  const DemoInterests: seq<string> := ["AI", "Web Development", "Startups"]
  const DemoBio := "Passionate full-stack developer looking to build amazing projects!"
  const DemoBadges: seq<string> := ["Early Adopter", "Project Champion", "Team Player"]

  /** The seeded demo user (id 1). */
  function DemoUser(): User {
    User(Some("password"), Profile(
      1, "demo@university.edu", "Demo User", "Stanford University", "Computer Science", 2024,
      DemoSkills, DemoInterests, DemoBio, Verification(Verified, Some("stanford.edu")),
      Stats(1250, 12, 5, 4.7, 23), DemoBadges, Available, Some("demouser")))
  }

  /** The seeded demo project's texts. */
  const DemoTitle := "AI-Powered Study Planner"
  const DemoDescription :=
    "Building an intelligent study scheduler that uses machine learning to optimize study sessions and improve learning outcomes."
  const DemoRoles: seq<Role> :=
    [ Role("Frontend Developer", 2, ["React", "TypeScript", "Tailwind"]),
      Role("Backend Developer", 1, ["Node.js", "MongoDB", "Python"]),
      Role("ML Engineer", 1, ["Python", "TensorFlow", "scikit-learn"]) ]
  const DemoTechStack: seq<string> := ["React", "Node.js", "MongoDB", "TensorFlow", "Python"]

  /** The seeded demo project (id 1, owned by the demo user). */
  function DemoProject(): Project {
    Project(1, DemoTitle, DemoDescription, 1, DemoRoles, DemoTechStack,
            Recruiting, [1], [], "hybrid", "serious", "Stanford University")
  }

  /** The store the server starts with. */
  function Initial(): (s: State)
    ensures WellFormed(s)
    ensures |s.users| == 1 && |s.projects| == 1 && s.messages == map[]
  {
    State([DemoUser()], [DemoProject()], map[])
  }

  /** Sum of every user's `stats.connections`. */
  function TotalConnections(us: seq<User>): int {
    if us == [] then 0 else us[0].profile.stats.connections + TotalConnections(us[1..])
  }

  /** Replacing one user changes the total by the difference in that user's connections. */
  lemma {:induction false} TotalConnectionsUpdate(us: seq<User>, i: nat, u: User)
    requires i < |us|
    ensures TotalConnections(us[i := u])
         == TotalConnections(us) - us[i].profile.stats.connections + u.profile.stats.connections
  {
    if i == 0 {
      assert us[i := u][1..] == us[1..];
    } else {
      assert us[i := u][1..] == us[1..][i - 1 := u];
      TotalConnectionsUpdate(us[1..], i - 1, u);
    }
  }
}

=== FILE: projects_route.dfy ===
/** The project handlers of the Next.js backend (app/api/projects/route.ts): the capped listing
    (GET) and creation (POST), which overrides the ownership fields of the request body with the
    token's. Documents are JSON objects; the database, the token check and schema validation on
    create are oracles. */
module ProjectsRoute {
  import opened Common
  import opened Seqs
  import opened Text
  import opened Tokens

  /** A JSON value. */
  datatype Json =
    | JNull
    | JBool(b: bool)
    | JNum(n: int)
    | JStr(s: string)
    | JArr(items: seq<Json>)
    | JObj(fields: map<string, Json>)

  /** A document: a JSON object's fields. */
  type Doc = map<string, Json>

  /** The libraries the handlers call: whether `connectDB` succeeds, the token check, and
      `Project.create`, which validates and stores a document or throws. */
  datatype Oracles = Oracles(
    dbUp: bool,
    verify: string -> Outcome<Payload>,
    create: Doc -> Outcome<Doc>)

  /** How many documents the listing returns at most. */
  const ListLimit := 20

  /** GET: the first twenty documents in collection order. */
  function ListProjects(env: Oracles, store: seq<Doc>): (r: Reply<seq<Doc>>)
    ensures !env.dbUp <==> r == Fail(500, InternalError)
    ensures r.Ok? ==> |r.value| <= ListLimit && |r.value| <= |store| && r.value == store[..|r.value|]
    ensures r.Ok? ==> |r.value| == ListLimit || r.value == store
  {
    if !env.dbUp then Fail(500, InternalError)
    else
      var page := Take(store, ListLimit);
      assert page == store[..|page|];
      Ok(page)
  }

  /** The fields the handler sets whatever the body says. */
  function Overrides(p: Payload): (o: Doc)
    ensures o.Keys == {"ownerId", "university", "status", "teamMembers", "applications"}
  {
    map["ownerId" := JStr(p.userId),
        "university" := JStr(p.university),
        "status" := JStr("recruiting"),
        "teamMembers" := JArr([JStr(p.userId)]),
        "applications" := JArr([])]
  }

  /** `{ ...projectData, ownerId, university, status, teamMembers, applications }`: the
      later fields win. */
  function CreateInput(body: Doc, p: Payload): (d: Doc)
    ensures d.Keys == body.Keys + Overrides(p).Keys
    ensures forall k :: k in Overrides(p) ==> d[k] == Overrides(p)[k]
    ensures forall k :: k in body && k !in Overrides(p) ==> d[k] == body[k]
  {
    body + Overrides(p)
  }

  /** Whatever the body claims, the document to create belongs to the token's user, is recruiting,
      has that user as its only member and has no applications. */
  lemma OwnershipComesFromToken(body: Doc, p: Payload)
    ensures var d := CreateInput(body, p);
            && d["ownerId"] == JStr(p.userId)
            && d["university"] == JStr(p.university)
            && d["status"] == JStr("recruiting")
            && d["teamMembers"] == JArr([JStr(p.userId)])
            && d["applications"] == JArr([])
  {
  }

  /** A document created from an already-created document's fields gets the same fields again. */
  lemma CreateInputIdempotent(body: Doc, p: Payload)
    ensures CreateInput(CreateInput(body, p), p) == CreateInput(body, p)
  {
  }

  const NoToken := "No token"

  /** What POST produces: the reply and the collection afterwards. */
  datatype Created = Created(reply: Reply<Doc>, next: seq<Doc>)

  /** POST. Without a token: 401 and nothing created. Everything that throws — a failed connection,
      a rejected token, an unreadable body, a document the schema refuses — is answered 500 and
      creates nothing. Otherwise the created document is appended and returned. */
  function CreateProject(env: Oracles, store: seq<Doc>, authorization: Option<string>, body: Option<Doc>): (r: Created)
    ensures r.reply.Fail? ==> r.next == store
    ensures r.reply.Fail? ==> r.reply == Fail(401, NoToken) || r.reply == Fail(500, InternalError)
    ensures r.reply == Fail(401, NoToken) <==> env.dbUp && !Truthy(BearerToken(authorization))
    ensures (env.dbUp && Truthy(BearerToken(authorization)) && env.verify(BearerToken(authorization).value).Throws?)
              ==> r.reply == Fail(500, InternalError)
    ensures (env.dbUp && Truthy(BearerToken(authorization)) && env.verify(BearerToken(authorization).value).Returns?) ==>
              && (body.None? ==> r.reply == Fail(500, InternalError))
              && (body.Some? ==>
                    var created := env.create(CreateInput(body.value, env.verify(BearerToken(authorization).value).value));
                    && (created.Throws? ==> r.reply == Fail(500, InternalError))
                    && (created.Returns? ==> r.reply == Ok(created.value) && r.next == store + [created.value]))
    ensures r.reply.Ok? ==>
              && Truthy(BearerToken(authorization)) && body.Some?
              && env.verify(BearerToken(authorization).value).Returns?
              && var input := CreateInput(body.value, env.verify(BearerToken(authorization).value).value);
              && env.create(input) == Returns(r.reply.value)
              && r.next == store + [r.reply.value]
  {
    if !env.dbUp then Created(Fail(500, InternalError), store)
    else
      var token := BearerToken(authorization);
      if !Truthy(token) then Created(Fail(401, NoToken), store)
      else match env.verify(token.value)
        case Throws => Created(Fail(500, InternalError), store)
        case Returns(payload) =>
          match body
          case None => Created(Fail(500, InternalError), store)
          case Some(fields) =>
            match env.create(CreateInput(fields, payload))
            case Throws => Created(Fail(500, InternalError), store)
            case Returns(doc) => Created(Ok(doc), store + [doc])
  }

  /** Creating adds at most one document and never removes or changes one. */
  lemma CreateOnlyAppends(env: Oracles, store: seq<Doc>, authorization: Option<string>, body: Option<Doc>)
    ensures var r := CreateProject(env, store, authorization, body);
            && |store| <= |r.next| <= |store| + 1
            && r.next[..|store|] == store
  {
  }
}

=== FILE: schema.dfy ===
/** The enumerated fields of the document schemas and the university-email validator
    (lib/index.ts). Schema validation is modelled for the enumerated fields only: a field
    that is absent takes its default, a present value must be one of the listed names. */
module Schema {
  import opened Common
  import opened Text

  /** `verification.status` of a user. */
  datatype VerificationStatus = Pending | Verified | Rejected

  function VerificationName(v: VerificationStatus): string {
    match v
    case Pending => "pending"
    case Verified => "verified"
    case Rejected => "rejected"
  }

  /** Reads a stored name back; None for a name outside the enum. */
  function ParseVerification(s: string): (r: Option<VerificationStatus>)
    ensures forall v :: r == Some(v) <==> VerificationName(v) == s
  {
    if s == "pending" then Some(Pending)
    else if s == "verified" then Some(Verified)
    else if s == "rejected" then Some(Rejected)
    else None
  }

  /** `availability` of a user. */
  datatype Availability = Available | Busy | Away

  function AvailabilityName(a: Availability): string {
    match a
    case Available => "available"
    case Busy => "busy"
    case Away => "away"
  }

  function ParseAvailability(s: string): (r: Option<Availability>)
    ensures forall a :: r == Some(a) <==> AvailabilityName(a) == s
  {
    if s == "available" then Some(Available)
    else if s == "busy" then Some(Busy)
    else if s == "away" then Some(Away)
    else None
  }

  /** `status` of a project. */
  datatype ProjectStatus = Recruiting | Active | Completed | Cancelled

  function ProjectStatusName(p: ProjectStatus): string {
    match p
    case Recruiting => "recruiting"
    case Active => "active"
    case Completed => "completed"
    case Cancelled => "cancelled"
  }

  function ParseProjectStatus(s: string): (r: Option<ProjectStatus>)
    ensures forall p :: r == Some(p) <==> ProjectStatusName(p) == s
  {
    if s == "recruiting" then Some(Recruiting)
    else if s == "active" then Some(Active)
    else if s == "completed" then Some(Completed)
    else if s == "cancelled" then Some(Cancelled)
    else None
  }

  /** `type` of a chat message. */
  datatype MessageKind = TextMessage | CodeMessage | FileMessage

  function MessageKindName(k: MessageKind): string {
    match k
    case TextMessage => "text"
    case CodeMessage => "code"
    case FileMessage => "file"
  }

  function ParseMessageKind(s: string): (r: Option<MessageKind>)
    ensures forall k :: r == Some(k) <==> MessageKindName(k) == s
  {
    if s == "text" then Some(TextMessage)
    else if s == "code" then Some(CodeMessage)
    else if s == "file" then Some(FileMessage)
    else None
  }

  /** Schema validation of `verification.status`: absent means `pending`; a present value must
      name a status, otherwise the document is rejected (None). */
  function VerificationField(o: Option<string>): (r: Option<VerificationStatus>)
    ensures o.None? ==> r == Some(Pending)
    ensures o.Some? ==> (r.Some? <==> o.value in {"pending", "verified", "rejected"})
    ensures o.Some? && r.Some? ==> VerificationName(r.value) == o.value
  {
    match o
    case None => Some(Pending)
    case Some(s) => ParseVerification(s)
  }

  /** Schema validation of `availability`: absent means `available`. */
  function AvailabilityField(o: Option<string>): (r: Option<Availability>)
    ensures o.None? ==> r == Some(Available)
    ensures o.Some? ==> (r.Some? <==> o.value in {"available", "busy", "away"})
    ensures o.Some? && r.Some? ==> AvailabilityName(r.value) == o.value
  {
    match o
    case None => Some(Available)
    case Some(s) => ParseAvailability(s)
  }

  /** Schema validation of a project's `status`: absent means `recruiting`. */
  function ProjectStatusField(o: Option<string>): (r: Option<ProjectStatus>)
    ensures o.None? ==> r == Some(Recruiting)
    ensures o.Some? ==> (r.Some? <==> o.value in {"recruiting", "active", "completed", "cancelled"})
    ensures o.Some? && r.Some? ==> ProjectStatusName(r.value) == o.value
  {
    match o
    case None => Some(Recruiting)
    case Some(s) => ParseProjectStatus(s)
  }

  /** Schema validation of a message's `type`: absent means `text`. */
  function MessageKindField(o: Option<string>): (r: Option<MessageKind>)
    ensures o.None? ==> r == Some(TextMessage)
    ensures o.Some? ==> (r.Some? <==> o.value in {"text", "code", "file"})
    ensures o.Some? && r.Some? ==> MessageKindName(r.value) == o.value
  {
    match o
    case None => Some(TextMessage)
    case Some(s) => ParseMessageKind(s)
  }

  /** Every enum value survives being written out by name and read back. */
  lemma EnumNamesRoundTrip(v: VerificationStatus, a: Availability, p: ProjectStatus, k: MessageKind)
    ensures ParseVerification(VerificationName(v)) == Some(v)
    ensures ParseAvailability(AvailabilityName(a)) == Some(a)
    ensures ParseProjectStatus(ProjectStatusName(p)) == Some(p)
    ensures ParseMessageKind(MessageKindName(k)) == Some(k)
  {
  }

  /** Result of `validateUniversityEmail`. */
  datatype EmailCheck = EmailCheck(isValid: bool, domain: string)

  /** The university-email rule: the domain contains ".edu" anywhere (a substring test, so
      "x.edu.cn" and "x.education.com" both pass) or ends with ".ac.uk". */
  predicate UniversityDomain(domain: string) {
    Contains(domain, ".edu") || EndsWith(domain, ".ac.uk")
  }

  /** `validateUniversityEmail`: the domain is `email.split('@')[1]`, returned whether or not
      it is valid. An email without '@' leaves the domain undefined and the validity test
      throws; that is the None result. */
  function ValidateUniversityEmail(email: string): (r: Option<EmailCheck>)
    ensures r.None? <==> '@' !in email
    ensures r.Some? ==> '@' !in r.value.domain && Contains(email, "@" + r.value.domain)
    ensures r.Some? ==> (r.value.isValid <==> UniversityDomain(r.value.domain))
  {
    match SplitSecond(email, '@')
    case None => None
    case Some(domain) => Some(EmailCheck(UniversityDomain(domain), domain))
  }

  /** For an address `local@domain` (one '@'), the validator returns exactly `domain`,
      and the verdict is the university-domain rule applied to it. */
  lemma ValidateWellFormedEmail(local: string, domain: string)
    requires '@' !in local && '@' !in domain
    ensures ValidateUniversityEmail(local + "@" + domain)
         == Some(EmailCheck(UniversityDomain(domain), domain))
  {
    assert local + "@" + domain == local + ['@'] + domain + [];
    SplitSecondOf(local, '@', domain, []);
  }

  /** With more than one '@' the domain stops at the second '@': only the first field
      after the first '@' is examined. */
  lemma ValidateStopsAtSecondAt(local: string, domain: string, rest: string)
    requires '@' !in local && '@' !in domain
    ensures ValidateUniversityEmail(local + "@" + domain + "@" + rest)
         == Some(EmailCheck(UniversityDomain(domain), domain))
  {
    assert local + "@" + domain + "@" + rest == local + ['@'] + domain + ("@" + rest);
    SplitSecondOf(local, '@', domain, "@" + rest);
  }

  /** The rule is a substring test, not a suffix test: any domain that merely passes through
      ".edu" (such as "mit.edu.example.com") is accepted. */
  lemma EduAnywhereInDomainPasses(local: string, before: string, after: string)
    requires '@' !in local && '@' !in before && '@' !in after
    ensures var domain := before + ".edu" + after;
            ValidateUniversityEmail(local + "@" + domain) == Some(EmailCheck(true, domain))
  {
    var domain := before + ".edu" + after;
    assert '@' !in domain by {
      assert forall i :: 0 <= i < |domain| ==> domain[i] != '@' by {
        forall i | 0 <= i < |domain| ensures domain[i] != '@' {
          if i < |before| { assert domain[i] == before[i]; }
          else if i < |before| + 4 { assert domain[i] == ".edu"[i - |before|]; }
          else { assert domain[i] == after[i - |before| - 4]; }
        }
      }
    }
    ValidateWellFormedEmail(local, domain);
    ContainsInfix(before, ".edu", after);
  }
}

=== FILE: seqs.dfy ===
/** Generic sequence operations behind `Array.prototype.filter`, `find` and `slice`. */
module Seqs {
  import opened Common

  /** `r` can be obtained from `s` by deleting elements: order is preserved. */
  ghost predicate Subseq<T>(r: seq<T>, s: seq<T>) {
    r == [] || (s != [] && ((r[0] == s[0] && Subseq(r[1..], s[1..])) || Subseq(r, s[1..])))
  }

  /** `Array.prototype.filter`: the elements of `s` satisfying `p`, in their original order. */
  function Filter<T>(s: seq<T>, p: T -> bool): (r: seq<T>)
    ensures |r| <= |s|
    ensures Subseq(r, s)
    ensures forall i :: 0 <= i < |r| ==> p(r[i])
    ensures forall i :: 0 <= i < |r| ==> r[i] in s
    ensures forall i :: 0 <= i < |s| && p(s[i]) ==> s[i] in r
  {
    if s == [] then []
    else if p(s[0]) then [s[0]] + Filter(s[1..], p)
    else Filter(s[1..], p)
  }

  /** Filtering keeps every element satisfying `p` as often as it occurs, and no other. */
  lemma {:induction false} FilterCounts<T>(s: seq<T>, p: T -> bool)
    ensures forall x :: multiset(Filter(s, p))[x] == if p(x) then multiset(s)[x] else 0
    decreases |s|
  {
    if s != [] {
      FilterCounts(s[1..], p);
      assert s == [s[0]] + s[1..];
    }
  }

  /** The conjunction of two predicates, as a named value so that proofs can refer to it. */
  function And<T>(p: T -> bool, q: T -> bool): T -> bool {
    x => p(x) && q(x)
  }

  /** A predicate that only applies when `on` holds (a filter that can be switched off). */
  function Guard<T>(on: bool, p: T -> bool): T -> bool {
    x => on ==> p(x)
  }

  /** Applying two filters one after the other is filtering once by their conjunction. */
  lemma {:induction false} FilterFilter<T>(s: seq<T>, p: T -> bool, q: T -> bool)
    ensures Filter(Filter(s, p), q) == Filter(s, And(p, q))
  {
    if s != [] {
      FilterFilter(s[1..], p, q);
      if p(s[0]) {
        assert Filter(s, p) == [s[0]] + Filter(s[1..], p);
        assert Filter(s, p)[1..] == Filter(s[1..], p);
      }
    }
  }

  /** A filter that every element passes changes nothing. */
  lemma {:induction false} FilterKeepsAll<T>(s: seq<T>, p: T -> bool)
    requires forall i :: 0 <= i < |s| ==> p(s[i])
    ensures Filter(s, p) == s
  {
    if s != [] {
      FilterKeepsAll(s[1..], p);
    }
  }

  /** Filtering by predicates that agree on every element gives the same result. */
  lemma {:induction false} FilterCongruent<T>(s: seq<T>, p: T -> bool, q: T -> bool)
    requires forall i :: 0 <= i < |s| ==> p(s[i]) == q(s[i])
    ensures Filter(s, p) == Filter(s, q)
  {
    if s != [] {
      FilterCongruent(s[1..], p, q);
    }
  }

  /** Filters distribute over concatenation. */
  lemma {:induction false} FilterAppend<T>(s: seq<T>, t: seq<T>, p: T -> bool)
    ensures Filter(s + t, p) == Filter(s, p) + Filter(t, p)
  {
    if s == [] {
      assert s + t == t;
    } else {
      var st := s + t;
      assert st[0] == s[0] && st[1..] == s[1..] + t;
      FilterAppend(s[1..], t, p);
      if p(s[0]) {
        assert Filter(st, p) == [s[0]] + (Filter(s[1..], p) + Filter(t, p));
      } else {
        assert Filter(st, p) == Filter(s[1..], p) + Filter(t, p);
      }
    }
  }

  /** A filter stage that runs only when switched on, like `if (param) list = list.filter(...)`. */
  function Stage<T>(s: seq<T>, on: bool, p: T -> bool): (r: seq<T>)
    ensures r == Filter(s, Guard(on, p))
  {
    if on then
      FilterCongruent(s, p, Guard(on, p));
      Filter(s, p)
    else
      FilterKeepsAll(s, Guard(on, p));
      s
  }

  /** Three optional filter stages in a row keep exactly the elements passing every enabled stage,
      in their original order: the same as one filter by the conjunction. */
  lemma StagedFilter<T>(s: seq<T>, on1: bool, p1: T -> bool, on2: bool, p2: T -> bool,
                        on3: bool, p3: T -> bool, all: T -> bool)
    requires forall x :: all(x) == ((on1 ==> p1(x)) && (on2 ==> p2(x)) && (on3 ==> p3(x)))
    ensures Stage(Stage(Stage(s, on1, p1), on2, p2), on3, p3) == Filter(s, all)
  {
    var g1, g2, g3 := Guard(on1, p1), Guard(on2, p2), Guard(on3, p3);
    FilterFilter(s, g1, g2);
    FilterFilter(s, And(g1, g2), g3);
    FilterCongruent(s, And(And(g1, g2), g3), all);
  }

  /** A filter's output, filtered again by the same predicate, is unchanged. */
  lemma FilterIdempotent<T>(s: seq<T>, p: T -> bool)
    ensures Filter(Filter(s, p), p) == Filter(s, p)
  {
    var r := Filter(s, p);
    FilterKeepsAll(r, p);
  }

  /** A prefix of `s` is a subsequence of `s`. */
  lemma {:induction false} PrefixIsSubseq<T>(s: seq<T>, n: nat)
    requires n <= |s|
    ensures Subseq(s[..n], s)
  {
    if n > 0 {
      PrefixIsSubseq(s[1..], n - 1);
      assert s[..n][1..] == s[1..][..n - 1];
    }
  }

  /** `s.slice(0, n)`: the first `n` elements, or all of `s` when it is shorter. */
  function Take<T>(s: seq<T>, n: nat): (r: seq<T>)
    ensures |r| <= n && |r| <= |s|
    ensures |r| == n || r == s
    ensures Subseq(r, s)
    ensures forall i :: 0 <= i < |r| ==> r[i] == s[i]
  {
    var k := if |s| < n then |s| else n;
    PrefixIsSubseq(s, k);
    s[..k]
  }

  /** `Array.prototype.findIndex` (and so `find`): the first position whose element satisfies `p`. */
  function FirstIndex<T>(s: seq<T>, p: T -> bool): (r: Option<nat>)
    ensures r.Some? ==> r.value < |s| && p(s[r.value])
    ensures r.Some? ==> forall j :: 0 <= j < r.value ==> !p(s[j])
    ensures r.None? <==> forall j :: 0 <= j < |s| ==> !p(s[j])
  {
    if s == [] then None
    else if p(s[0]) then Some(0)
    else
      match FirstIndex(s[1..], p)
      case None => None
      case Some(k) => Some(k + 1)
  }

  /** The first match is determined by the properties `FirstIndex` promises: any position that
      matches and has no earlier match is the one it returns. */
  lemma FirstIndexUnique<T>(s: seq<T>, p: T -> bool, k: nat)
    requires k < |s| && p(s[k])
    requires forall j :: 0 <= j < k ==> !p(s[j])
    ensures FirstIndex(s, p) == Some(k)
  {
  }

  /** Appending an element does not move an existing first match; when there was none,
      the new element is the first match exactly when it satisfies `p`. */
  lemma FirstIndexAppend<T>(s: seq<T>, x: T, p: T -> bool)
    ensures FirstIndex(s, p).Some? ==> FirstIndex(s + [x], p) == FirstIndex(s, p)
    ensures FirstIndex(s, p).None? && p(x) ==> FirstIndex(s + [x], p) == Some(|s|)
    ensures FirstIndex(s, p).None? && !p(x) ==> FirstIndex(s + [x], p) == None
  {
    var t := s + [x];
    match FirstIndex(s, p)
    case Some(k) =>
      assert t[k] == s[k];
      FirstIndexUnique(t, p, k);
    case None =>
      if p(x) {
        assert t[|s|] == x;
        FirstIndexUnique(t, p, |s|);
      } else {
        assert forall j :: 0 <= j < |t| ==> !p(t[j]) by {
          forall j | 0 <= j < |t| ensures !p(t[j]) {
            if j < |s| { assert t[j] == s[j]; }
          }
        }
      }
  }
}

=== FILE: text.dfy ===
/** The JavaScript string operations the application relies on: `trim`, `toLowerCase`,
    `includes`, `endsWith`, `split(sep)[1]` and `replace` with a string pattern. */
module Text {
  import opened Common
  import opened Seqs

  /** ECMAScript WhiteSpace and LineTerminator code points: what `String.prototype.trim` strips. */
  predicate IsSpace(c: char) {
    || c == ' ' || c == '\t' || c == '\n' || c == '\r' || c == '\U{000B}' || c == '\U{000C}'
    || c == '\U{00A0}' || c == '\U{1680}' || ('\U{2000}' <= c <= '\U{200A}')
    || c == '\U{2028}' || c == '\U{2029}' || c == '\U{202F}' || c == '\U{205F}'
    || c == '\U{3000}' || c == '\U{FEFF}'
  }

  /** Every character of `s` is white space (true of ""). */
  predicate AllSpace(s: string) {
    forall i :: 0 <= i < |s| ==> IsSpace(s[i])
  }

  /** `trimStart`: drops the longest all-white-space prefix. */
  function TrimStart(s: string): (r: string)
    ensures |r| <= |s| && r == s[|s| - |r|..]
    ensures r == [] || !IsSpace(r[0])
    ensures AllSpace(s[..|s| - |r|])
  {
    if s != [] && IsSpace(s[0]) then
      var r := TrimStart(s[1..]);
      assert s[..|s| - |r|] == [s[0]] + s[1..][..|s[1..]| - |r|];
      r
    else s
  }

  /** `trimEnd`: drops the longest all-white-space suffix. */
  function TrimEnd(s: string): (r: string)
    ensures |r| <= |s| && r == s[..|r|]
    ensures r == [] || !IsSpace(r[|r| - 1])
    ensures AllSpace(s[|r|..])
  {
    if s != [] && IsSpace(s[|s| - 1]) then
      var r := TrimEnd(s[..|s| - 1]);
      assert s[|r|..] == s[..|s| - 1][|r|..] + [s[|s| - 1]];
      r
    else s
  }

  /** `String.prototype.trim`. The result is empty exactly when `s` is all white space,
      and otherwise neither starts nor ends with white space. */
  function Trim(s: string): (r: string)
    ensures |r| <= |s|
    ensures r == [] <==> AllSpace(s)
    ensures r == [] || (!IsSpace(r[0]) && !IsSpace(r[|r| - 1]))
  {
    var a := TrimStart(s);
    var r := TrimEnd(a);
    TrimEnds(s, a, r);
    r
  }

  /** The facts `Trim` promises, from those of `TrimStart` and `TrimEnd`. */
  lemma TrimEnds(s: string, a: string, r: string)
    requires a == TrimStart(s) && r == TrimEnd(a)
    ensures r == [] <==> AllSpace(s)
    ensures r == [] || (!IsSpace(r[0]) && !IsSpace(r[|r| - 1]))
  {
    if r == [] {
      TrimmedToNothing(s, a);
    } else {
      var k := |s| - |a|;
      assert r[0] == a[0];
      assert a[0] == s[k];
    }
  }

  /** When nothing survives trimming the end, both the dropped prefix and the rest were white space. */
  lemma TrimmedToNothing(s: string, a: string)
    requires a == TrimStart(s) && TrimEnd(a) == []
    ensures AllSpace(s)
  {
    var k := |s| - |a|;
    assert s == s[..k] + a;
    assert a[0..] == a;
    AllSpaceConcat(s[..k], a);
  }

  lemma AllSpaceConcat(x: string, y: string)
    requires AllSpace(x) && AllSpace(y)
    ensures AllSpace(x + y)
  {
    forall i | 0 <= i < |x + y| ensures IsSpace((x + y)[i]) {
      if i < |x| { assert (x + y)[i] == x[i]; } else { assert (x + y)[i] == y[i - |x|]; }
    }
  }

  /** Padding a trimmed string with white space on both sides and trimming again gives it back. */
  lemma {:induction false} TrimPadded(w1: string, t: string, w2: string)
    requires AllSpace(w1) && AllSpace(w2)
    requires t == [] || (!IsSpace(t[0]) && !IsSpace(t[|t| - 1]))
    ensures Trim(w1 + t + w2) == t
  {
    if t == [] {
      assert w1 + t + w2 == w1 + w2;
      AllSpaceConcat(w1, w2);
    } else {
      TrimStartPadded(w1, t + w2);
      assert w1 + t + w2 == w1 + (t + w2);
      TrimEndPadded(t, w2);
    }
  }

  lemma {:induction false} TrimStartPadded(w: string, t: string)
    requires AllSpace(w)
    requires t != [] && !IsSpace(t[0])
    ensures TrimStart(w + t) == t
  {
    if w != [] {
      assert (w + t)[1..] == w[1..] + t;
      TrimStartPadded(w[1..], t);
    }
  }

  lemma {:induction false} TrimEndPadded(t: string, w: string)
    requires AllSpace(w)
    requires t != [] && !IsSpace(t[|t| - 1])
    ensures TrimEnd(t + w) == t
    decreases |w|
  {
    if w != [] {
      assert (t + w)[..|t + w| - 1] == t + w[..|w| - 1];
      TrimEndPadded(t, w[..|w| - 1]);
    } else {
      assert t + w == t;
    }
  }

  /** Trimming twice is trimming once. */
  lemma TrimIdempotent(s: string)
    ensures Trim(Trim(s)) == Trim(s)
  {
    var t := Trim(s);
    TrimPadded([], t, []);
    assert [] + t + [] == t;
  }

  /** `toLowerCase` on one character; only the ASCII letters A-Z are mapped. */
  function LowerChar(c: char): char {
    if 'A' <= c <= 'Z' then (c as int + 32) as char else c
  }

  /** `String.prototype.toLowerCase` restricted to ASCII: every A-Z becomes a-z, nothing else moves. */
  function Lower(s: string): (r: string)
    ensures |r| == |s|
    ensures forall i :: 0 <= i < |r| ==> !('A' <= r[i] <= 'Z')
    ensures forall i :: 0 <= i < |s| && !('A' <= s[i] <= 'Z') ==> r[i] == s[i]
    ensures forall i :: 0 <= i < |s| && 'A' <= s[i] <= 'Z' ==> r[i] as int == s[i] as int + 32
  {
    seq(|s|, i requires 0 <= i < |s| => LowerChar(s[i]))
  }

  /** Lower-casing a lower-cased string changes nothing. */
  lemma LowerIdempotent(s: string)
    ensures Lower(Lower(s)) == Lower(s)
  {
  }

  /** `Array.prototype.map(s => s.toLowerCase())`. */
  function LowerAll(ss: seq<string>): (r: seq<string>)
    ensures |r| == |ss|
    ensures forall i :: 0 <= i < |ss| ==> r[i] == Lower(ss[i])
  {
    seq(|ss|, i requires 0 <= i < |ss| => Lower(ss[i]))
  }

  predicate IsPrefix(p: string, s: string) {
    |p| <= |s| && s[..|p|] == p
  }

  /** `s.includes(sub)`: `sub` occurs somewhere in `s` ("" occurs everywhere). */
  predicate Contains(s: string, sub: string)
    decreases |s|
  {
    IsPrefix(sub, s) || (s != [] && Contains(s[1..], sub))
  }

  /** An occurrence at any position is found by `Contains`. */
  lemma {:induction false} ContainsAt(s: string, sub: string, k: nat)
    requires k + |sub| <= |s| && s[k..k + |sub|] == sub
    ensures Contains(s, sub)
  {
    if k > 0 {
      assert s[1..][k - 1..k - 1 + |sub|] == s[k..k + |sub|];
      ContainsAt(s[1..], sub, k - 1);
    }
  }

  /** A string embedded in a larger one is contained in it. */
  lemma ContainsInfix(a: string, sub: string, b: string)
    ensures Contains(a + sub + b, sub)
  {
    var s := a + sub + b;
    assert s[|a|..|a| + |sub|] == sub;
    ContainsAt(s, sub, |a|);
  }

  /** The case-insensitive search test shared by every listing: some text, lower-cased,
      includes the (already lower-cased) term. */
  predicate SomeTextIncludes(texts: seq<string>, lowTerm: string) {
    exists i :: 0 <= i < |texts| && Contains(Lower(texts[i]), lowTerm)
  }

  /** `s.endsWith(suf)`. */
  predicate EndsWith(s: string, suf: string) {
    |suf| <= |s| && s[|s| - |suf|..] == suf
  }

  /** The text of `s` before the first `sep`, or all of `s` when `sep` does not occur. */
  function UpTo(s: string, sep: char): (r: string)
    ensures sep !in r
    ensures IsPrefix(r, s)
    ensures |r| == |s| || s[|r|] == sep
  {
    match FirstIndex(s, c => c == sep)
    case None => s
    case Some(k) => s[..k]
  }

  /** `s.split(sep)[1]`: the field between the first and the second `sep` (or the end of `s`);
      None (JavaScript's `undefined`) when `sep` does not occur in `s`. */
  function SplitSecond(s: string, sep: char): (r: Option<string>)
    ensures r.None? <==> sep !in s
    ensures r.Some? ==> sep !in r.value && Contains(s, [sep] + r.value)
  {
    match FirstIndex(s, c => c == sep)
    case None => None
    case Some(k) =>
      var field := UpTo(s[k + 1..], sep);
      assert s[k..k + 1 + |field|] == [sep] + field;
      ContainsAt(s, [sep] + field, k);
      Some(field)
  }

  /** Splitting a string built from fields separated by `sep` recovers the second field. */
  lemma SplitSecondOf(first: string, sep: char, second: string, rest: string)
    requires sep !in first && sep !in second
    requires rest == [] || rest[0] == sep
    ensures SplitSecond(first + [sep] + second + rest, sep) == Some(second)
  {
    var s := first + [sep] + second + rest;
    var isSep := c => c == sep;
    assert s[|first|] == sep;
    FirstIndexUnique(s, isSep, |first|);
    var tail := s[|first| + 1..];
    assert tail == second + rest;
    if rest == [] {
      assert FirstIndex(tail, isSep) == None;
    } else {
      assert tail[|second|] == sep;
      FirstIndexUnique(tail, isSep, |second|);
    }
  }

  /** `pat` occurs in `s` starting at position `k`. */
  predicate OccursAt(s: string, pat: string, k: int) {
    0 <= k && k + |pat| <= |s| && s[k..k + |pat|] == pat
  }

  /** `k` is where `pat` first occurs in `s`: `s.indexOf(pat)`. */
  predicate FirstOccurrence(s: string, pat: string, k: int) {
    OccursAt(s, pat, k) && forall j :: 0 <= j < k ==> !OccursAt(s, pat, j)
  }

  /** `s` with the occurrence of `pat` at `k` replaced by `rep`. */
  function Splice(s: string, pat: string, rep: string, k: nat): string
    requires k + |pat| <= |s|
  {
    s[..k] + rep + s[k + |pat|..]
  }

  /** `s.replace(pat, rep)` with a string pattern: only the first occurrence is replaced. The
      replacement is taken literally: `$&`-style substitution patterns in `rep` are not
      interpreted (the one use replaces with ""). */
  function ReplaceFirst(s: string, pat: string, rep: string): (r: string)
    ensures !Contains(s, pat) ==> r == s
    ensures Contains(s, pat) ==> |r| == |s| - |pat| + |rep|
    ensures Contains(s, pat) ==> exists k :: FirstOccurrence(s, pat, k) && r == Splice(s, pat, rep, k)
    decreases |s|
  {
    if IsPrefix(pat, s) then
      assert FirstOccurrence(s, pat, 0) && rep + s[|pat|..] == Splice(s, pat, rep, 0);
      rep + s[|pat|..]
    else if s == [] then s
    else
      var t := ReplaceFirst(s[1..], pat, rep);
      if Contains(s, pat) then
        ReplaceFirstStep(s, pat, rep, t);
        [s[0]] + t
      else [s[0]] + t
  }

  /** Replacing in the tail after a first character that starts no occurrence. */
  lemma ReplaceFirstStep(s: string, pat: string, rep: string, t: string)
    requires s != [] && !IsPrefix(pat, s)
    requires exists k :: FirstOccurrence(s[1..], pat, k) && t == Splice(s[1..], pat, rep, k)
    ensures exists k :: FirstOccurrence(s, pat, k) && [s[0]] + t == Splice(s, pat, rep, k)
  {
    var k :| FirstOccurrence(s[1..], pat, k) && t == Splice(s[1..], pat, rep, k);
    FirstOccurrenceShift(s, pat, k);
    SpliceShift(s, pat, rep, k);
  }

  /** The first occurrence in the tail is the first in the whole when `s` does not start with it. */
  lemma FirstOccurrenceShift(s: string, pat: string, k: nat)
    requires s != [] && !IsPrefix(pat, s) && FirstOccurrence(s[1..], pat, k)
    ensures FirstOccurrence(s, pat, k + 1)
  {
    assert s[k + 1..k + 1 + |pat|] == s[1..][k..k + |pat|];
    forall j | 0 <= j < k + 1 ensures !OccursAt(s, pat, j) {
      if j > 0 && j + |pat| <= |s| {
        var a, b := s[j..j + |pat|], s[1..][j - 1..j - 1 + |pat|];
        assert |a| == |b| && forall m :: 0 <= m < |a| ==> a[m] == b[m];
        assert !OccursAt(s[1..], pat, j - 1);
      } else if j == 0 {
        assert !IsPrefix(pat, s);
      }
    }
  }

  lemma SpliceShift(s: string, pat: string, rep: string, k: nat)
    requires s != [] && k + |pat| <= |s| - 1
    ensures [s[0]] + Splice(s[1..], pat, rep, k) == Splice(s, pat, rep, k + 1)
  {
    assert [s[0]] + s[1..][..k] == s[..k + 1];
    assert s[1..][k + |pat|..] == s[k + 1 + |pat|..];
  }
}

=== FILE: tokens.dfy ===
/** The token plumbing shared by the Next.js handlers: the payload a token carries and the way a
    handler reads it from the `authorization` header. Signing and checking a token are oracles of
    the handlers. */
module Tokens {
  import opened Common
  import opened Text

  /** What a token carries: `{ userId, email, university }`. */
  datatype Payload = Payload(userId: string, email: string, university: string)

  /** `authorization?.replace('Bearer ', '')`: the first "Bearer " anywhere in the header is
      removed; a missing header gives no token. */
  function BearerToken(authorization: Option<string>): (r: Option<string>)
    ensures authorization.None? <==> r.None?
    ensures authorization.Some? && !Contains(authorization.value, "Bearer ") ==> r == authorization
  {
    match authorization
    case None => None
    case Some(h) => Some(ReplaceFirst(h, "Bearer ", ""))
  }

  /** "Bearer " followed by a token yields the token. */
  lemma BearerTokenOf(token: string)
    ensures BearerToken(Some("Bearer " + token)) == Some(token)
  {
    var h := "Bearer " + token;
    assert IsPrefix("Bearer ", h);
    assert h[|"Bearer "|..] == token;
    assert ReplaceFirst(h, "Bearer ", "") == "" + h[|"Bearer "|..];
    assert "" + h[|"Bearer "|..] == token;
  }
}

=== FILE: workspace.dfy ===
/** The state-update rules of the React project workspace (components/Workspace.tsx): the chat's
    send guard and payload, appending messages pushed over the socket, loading the history, and
    the task board's add-task rule. Rendering, the socket itself and the fetch are left out. */
module Workspace {
  import opened Common
  import opened Seqs
  import opened Text
  import opened Schema

  /** The JSON the chat sends: `{ projectId, userId, content, type }`. */
  datatype Outgoing = Outgoing(projectId: string, userId: string, content: string, kind: MessageKind)

  /** The chat's state: the messages shown (whatever the server pushes), the input's text, the
      logged-in user's id if any, and whether a socket has been set. */
  datatype ChatState<M> = ChatState(messages: seq<M>, draft: string, user: Option<string>, socketSet: bool)

  /** A send attempt: the state afterwards and what went over the socket, if anything. */
  datatype Sent<M> = Sent(state: ChatState<M>, sent: Option<Outgoing>)

  /** `sendMessage`: nothing happens when the input is blank after trimming, no one is logged in
      or there is no socket; otherwise the untrimmed input goes out as a text message of this
      project and the input is cleared. The shown messages only change when the server echoes. */
  function SendMessage<M>(st: ChatState<M>, projectId: string): (r: Sent<M>)
    ensures Trim(st.draft) == "" || st.user.None? || !st.socketSet <==> r.sent.None?
    ensures r.sent.None? ==> r.state == st
    ensures r.sent.Some? ==>
              && r.sent.value == Outgoing(projectId, st.user.value, st.draft, TextMessage)
              && r.state == st.(draft := "")
  {
    if Trim(st.draft) == "" || st.user.None? || !st.socketSet then Sent(st, None)
    else Sent(st.(draft := ""), Some(Outgoing(projectId, st.user.value, st.draft, TextMessage)))
  }

  /** Pressing send twice without typing sends at most once: the first send clears the input. */
  lemma SecondSendSendsNothing<M>(st: ChatState<M>, projectId: string)
    ensures var first := SendMessage(st, projectId);
            SendMessage(first.state, projectId) == Sent(first.state, None)
  {
    var first := SendMessage(st, projectId);
    if first.sent.Some? {
      assert AllSpace(first.state.draft);
    }
  }

  /** The content sent is exactly what was typed, surrounding white space included. */
  lemma SentContentIsUntrimmed<M>(st: ChatState<M>, projectId: string, w: string, text: string)
    requires st.draft == w + text && w != [] && AllSpace(w) && !AllSpace(text)
    requires st.user.Some? && st.socketSet
    ensures SendMessage(st, projectId).sent == Some(Outgoing(projectId, st.user.value, w + text, TextMessage))
  {
    assert !AllSpace(st.draft) by {
      var k :| 0 <= k < |text| && !IsSpace(text[k]);
      assert st.draft[|w| + k] == text[k];
    }
  }

  /** `onmessage`: the pushed message is added after everything shown. */
  function OnReceive<M>(st: ChatState<M>, m: M): (r: ChatState<M>)
    ensures |r.messages| == |st.messages| + 1
    ensures r.messages[..|st.messages|] == st.messages && r.messages[|st.messages|] == m
    ensures r.draft == st.draft && r.user == st.user && r.socketSet == st.socketSet
  {
    st.(messages := st.messages + [m])
  }

  /** Receiving messages one after another shows them in arrival order after the earlier ones. */
  lemma {:induction false} ReceiveAll<M>(st: ChatState<M>, ms: seq<M>)
    ensures ReceiveEach(st, ms).messages == st.messages + ms
    decreases |ms|
  {
    if ms != [] {
      ReceiveAll(OnReceive(st, ms[0]), ms[1..]);
      assert st.messages + [ms[0]] + ms[1..] == st.messages + ms;
    }
  }

  /** Delivering `ms` one `onmessage` at a time. */
  function ReceiveEach<M>(st: ChatState<M>, ms: seq<M>): (r: ChatState<M>)
    ensures r.draft == st.draft && r.user == st.user && r.socketSet == st.socketSet
    decreases |ms|
  {
    if ms == [] then st else ReceiveEach(OnReceive(st, ms[0]), ms[1..])
  }

  /** The history fetch replaces the shown messages wholesale. */
  function OnHistory<M>(st: ChatState<M>, history: seq<M>): (r: ChatState<M>)
    ensures r.messages == history
    ensures r.draft == st.draft && r.user == st.user && r.socketSet == st.socketSet
  {
    st.(messages := history)
  }

  /** A message pushed before the history arrives is no longer shown afterwards unless the history
      holds it: the fetch and the socket race. */
  lemma HistoryOverwritesLiveMessages<M>(st: ChatState<M>, m: M, history: seq<M>)
    ensures OnHistory(OnReceive(st, m), history).messages == history
  {
  }

  // ---------------------------------------------------------------- task board

  datatype Task = Task(id: string, title: string, status: string)

  /** The task list and the new-task input. */
  datatype Board = Board(tasks: seq<Task>, draft: string)

  /** The three tasks the board starts with. */
  function InitialTasks(): (r: seq<Task>)
    ensures |r| == 3
  {
    [ Task("1", "Setup project structure", "done"),
      Task("2", "Design database schema", "in-progress"),
      Task("3", "Implement authentication", "todo") ]
  }

  /** `addTask` with the `Date.now().toString()` id supplied: a blank title is ignored; otherwise
      one `todo` task with the untrimmed title is appended and the input cleared. */
  function AddTask(b: Board, freshId: string): (r: Board)
    ensures Trim(b.draft) == "" ==> r == b
    ensures Trim(b.draft) != "" ==> r == Board(b.tasks + [Task(freshId, b.draft, "todo")], "")
  {
    if Trim(b.draft) == "" then b
    else Board(b.tasks + [Task(freshId, b.draft, "todo")], "")
  }

  function IsTodo(): Task -> bool {
    (t: Task) => t.status == "todo"
  }

  /** Adding a task grows the to-do list by one and leaves the other tasks where they were. */
  lemma AddTaskAddsOneTodo(b: Board, freshId: string)
    requires Trim(b.draft) != ""
    ensures var r := AddTask(b, freshId);
            && r.tasks[..|b.tasks|] == b.tasks
            && |Filter(r.tasks, IsTodo())| == |Filter(b.tasks, IsTodo())| + 1
  {
    var t := Task(freshId, b.draft, "todo");
    FilterAppend(b.tasks, [t], IsTodo());
    assert Filter([t], IsTodo()) == [t];
  }
}
